=== FILE: README.md ===
# Wine filter engine

A Dafny model of the filter engine of the wine database's Swing panel and
of the pure parts of its query handler.

The panel keeps three pieces of state:
- an ordered list of active SQL predicates (`activeFilters`);
- at most one row limit (`limitFilter`);
- a map from each filter tag's display description to its predicate
  (`filterMap`).

Every query the user executes from the combo box is translated into a
predicate and a label, or into an error dialog:
- limit, quality and color;
- an alcohol, pH or date range;
- an id, an id list or an id range.

A filter is then added unless its predicate is already active. A tag can
be removed by its label, and the reset button clears everything. The
query handler contributes the fixed base query, the `LIMIT` suffix, quote
escaping of the quality literal, and the projection of a result set into
header and lines, with SQL NULL shown as `NULL`.

Modules:
- `Wrappers`: `Option` and `Result`.
- `JavaText`: Java's `trim` and `String.split` on a one-character
  separator. Trailing empty pieces are dropped, so `"1,2,"` splits into
  `1` and `2`, `"5-"` into `5`, and `","` into nothing.
- `JavaInt`: `Integer.parseInt` (an optional sign, ASCII digits, and the
  32-bit range) and `String.valueOf(int)`. `ParseIntJava` follows the
  JDK's accumulate-negatively loop and is proved equal to the declarative
  `ParseInt`.
- `SqlText`: quote doubling, and a reader for single-quoted literals under
  standard SQL quoting: a doubled quote stands for one quote, and a
  backslash is not an escape.
- `QueryHandler`: the text builders and `executeQuery`'s projection.
- `FilterRequests`: translation of each request into an `Entry`
  (predicate and label) or an `Error`.
- `FilterEngine`: the state, its transitions, the invariant they keep,
  and what is handed to the query executor and shown back.
- `Scenarios`: concrete id inputs.

Alcohol and pH bounds are Java doubles. Their parsing, the `>= 0` test and
their rendering are a `NumberSyntax` parameter. An empty bound is the
source's `-1` sentinel and never counts as present.

## Model

| member | source | states |
|---|---|---|
| FilterEngine.AddFilter | WineDatabaseSystem/src/UI/GenericUIApp.java:190-196 | rejected with AlreadyApplied exactly when the predicate is already active, whatever its label; otherwise the predicate is appended after the earlier ones, which are unchanged, the limit is untouched, the label maps to the predicate, and every other label's mapping is unchanged |
| FilterEngine.DuplicateRejected | WineDatabaseSystem/src/UI/GenericUIApp.java:329-336 | a second add of the same predicate under any label is refused |
| FilterEngine.RemoveFilter | WineDatabaseSystem/src/UI/GenericUIApp.java:747-781 | an unknown label is NotFound; a label starting with LIMIT clears the limit and keeps the filters; any other label removes its predicate's first occurrence; on success the label leaves the map and nothing else does |
| FilterEngine.RemoveFirst | WineDatabaseSystem/src/UI/GenericUIApp.java:759 | List.remove(Object): nothing changes when the element is absent; otherwise its first occurrence is cut out and the elements before and after it keep their order |
| FilterEngine.RemoveFirstKeeps | WineDatabaseSystem/src/UI/GenericUIApp.java:759 | removing from a duplicate-free list removes the element entirely and keeps the list duplicate-free |
| FilterEngine.RemoveFirstAppended | WineDatabaseSystem/src/UI/GenericUIApp.java:759 | removing the element just appended gives back the earlier list |
| FilterEngine.AddThenRemove | WineDatabaseSystem/src/UI/GenericUIApp.java:747-781 | adding a filter and removing it by its label restores the filters and the limit, and the whole state when the label was new |
| FilterEngine.RemoveFreesFilter | WineDatabaseSystem/src/UI/GenericUIApp.java:759 | after a regular tag is removed its predicate can be added again |
| FilterEngine.SetLimit | WineDatabaseSystem/src/UI/GenericUIApp.java:160-176 | an empty field is MissingInput and a field parseInt rejects is NotAnInteger, with no change; otherwise the filters are untouched and the limit becomes the decimal text of the parsed int |
| FilterEngine.SetLimitReplaces | WineDatabaseSystem/src/UI/GenericUIApp.java:167-173 | after a limit is set there is exactly one limit tag, the new one, and every other tag and filter is as before |
| FilterEngine.SetLimitAcceptsAnyInt | WineDatabaseSystem/src/UI/GenericUIApp.java:166-171 | every int, zero and negative ones included, is accepted as the limit and is stored as written |
| FilterEngine.CanonicalLimitStoredVerbatim | WineDatabaseSystem/src/UI/GenericUIApp.java:166-173 | a limit typed as unsigned digits without a leading zero, within 32 bits, is stored exactly as typed |
| FilterEngine.ResetFilters | WineDatabaseSystem/src/UI/GenericUIApp.java:804-806 | reset leaves no filter, no limit and no tag, whatever the state before |
| FilterEngine.ResetIdempotent | WineDatabaseSystem/src/UI/GenericUIApp.java:790-794 | resetting twice is resetting once, and gives the initial state, which satisfies the invariant |
| FilterEngine.AddPreservesValid | WineDatabaseSystem/src/UI/GenericUIApp.java:713-715 | a successful add of a non-limit label keeps the invariant: no duplicate predicate, one limit tag at most, every tag naming an active predicate |
| FilterEngine.RemovePreservesValid | WineDatabaseSystem/src/UI/GenericUIApp.java:747-781 | a successful remove keeps the invariant |
| FilterEngine.SetLimitPreservesValid | WineDatabaseSystem/src/UI/GenericUIApp.java:160-176 | a successful limit change keeps the invariant |
| FilterEngine.Handle | WineDatabaseSystem/src/UI/GenericUIApp.java:140-414 | a refused request leaves the state as it was. Each filter request is refused exactly when its own translation fails or its predicate is already active, and otherwise appends that translation's predicate under its label, with the limit kept. Reset gives the initial state. A tag removal fails exactly for an unknown tag and otherwise removes that tag only. A limit request fails exactly for an empty or non-int field and otherwise stores text that parses to the typed value |
| FilterEngine.FilterStep | WineDatabaseSystem/src/UI/GenericUIApp.java:329-336 | a translated request is refused with the translation's error or AlreadyApplied, and otherwise the predicate is appended and tagged with its label and nothing else changes |
| FilterEngine.HandlePreservesValid | WineDatabaseSystem/src/UI/GenericUIApp.java:140-414 | every request, tag removal and reset keeps the invariant |
| FilterEngine.AsWrittenIdRequestPreservesValid | WineDatabaseSystem/src/UI/GenericUIApp.java:293-336 | the id request as written, which accepts "," as id IN (), still keeps the invariant |
| FilterEngine.RunPreservesValid | WineDatabaseSystem/src/UI/GenericUIApp.java:33-36 | no sequence of user actions reaches a state with a duplicate predicate or more than one limit |
| FilterEngine.Snapshot | WineDatabaseSystem/src/UI/GenericUIApp.java:469-471 | the executor is handed the unfiltered base query of the query handler with the state's active predicates, in order, and its limit |
| FilterEngine.SnapshotAfterReset | WineDatabaseSystem/src/UI/GenericUIApp.java:790-806 | after the reset button the executor is handed the base query with no predicate and no limit |
| FilterEngine.SnapshotInInsertionOrder | WineDatabaseSystem/src/UI/GenericUIApp.java:469-471 | two filters added one after the other reach the executor after the active ones and in the order they were added, with the limit unchanged |
| FilterEngine.DisplayOfStore | WineDatabaseSystem/src/UI/GenericUIApp.java:494-516 | for the rows the store returned, projected as executeQuery projects them, the table shows each row's cell text, the count is the number of rows the store returned, and the no-wines notice is raised exactly when it returned none |
| FilterEngine.PanelQualityMatchesHandler | WineDatabaseSystem/src/UI/GenericUIApp.java:188 | the panel's quality predicate is exactly the WHERE clause getWinesByQuality builds |
| FilterEngine.PanelColorMatchesHandler | WineDatabaseSystem/src/UI/GenericUIApp.java:250 | the panel's color predicate equals getWinesByColor's WHERE clause for every color without a quote |
| FilterEngine.DropDownsMatchHandler | WineDatabaseSystem/src/UI/GenericUIApp.java:606-638 | for every quality and color the drop-downs offer, panel and query handler build the same condition |
| FilterRequests.QualityEntry | WineDatabaseSystem/src/UI/GenericUIApp.java:183-189 | no selection is MissingInput; otherwise the label is "Quality: " and the value, and the quoted literal reads back as exactly the value |
| FilterRequests.ColorEntry | WineDatabaseSystem/src/UI/GenericUIApp.java:245-251 | no selection is MissingInput; otherwise the label is "Color: " and the value, and the quoted literal reads back as exactly the value |
| FilterRequests.NumericRangeEntry | WineDatabaseSystem/src/UI/GenericUIApp.java:207-227 | both fields empty is MissingInput; an unparsable field is NotANumber; otherwise BETWEEN, >= or <= by which bounds are >= 0, with the label in the same shape, and the empty predicate and label when neither is; the pH filter (lines 382-402) has the same shapes |
| FilterRequests.PhEntry | WineDatabaseSystem/src/UI/GenericUIApp.java:391-400 | a pH label never starts with LIMIT, so its tag is never taken for the limit's |
| FilterRequests.AlcoholEntry | WineDatabaseSystem/src/UI/GenericUIApp.java:216-225 | an alcohol label never starts with LIMIT, so its tag is never taken for the limit's |
| FilterRequests.DateEntry | WineDatabaseSystem/src/UI/GenericUIApp.java:344-363 | an error exactly when both dates are empty; otherwise the quoted BETWEEN, >= or <= form by which dates are given, with a label in the same shape |
| FilterRequests.IdDispatch | WineDatabaseSystem/src/UI/GenericUIApp.java:274-327 | a dash makes the input a range, else a comma a list, else a single id; each failure has its own error (BadRangeFormat when the dash split does not give two pieces) |
| FilterRequests.IdEntryDenotes | WineDatabaseSystem/src/UI/GenericUIApp.java:274-327 | the id filter is accepted exactly when there is at least one token and every token is an int, and its predicate, read back, admits exactly the ids the input names |
| FilterRequests.IdListVerbatim | WineDatabaseSystem/src/UI/GenericUIApp.java:293-314 | comma-separated non-negative ints without blanks become an IN list that is the input itself |
| FilterRequests.IdSingleVerbatim | WineDatabaseSystem/src/UI/GenericUIApp.java:318-322 | a single unsigned int without blanks is embedded as typed: id = followed by the input, labelled ID(s): and the input |
| FilterRequests.IdSingleKeepsSpelling | WineDatabaseSystem/src/UI/GenericUIApp.java:318-336 | two different spellings of an id, such as 5 and 05, build different predicates, so both can be active together |
| FilterRequests.IdRangeVerbatim | WineDatabaseSystem/src/UI/GenericUIApp.java:276-284 | a range a-b of unsigned ints without blanks builds id BETWEEN a AND b labelled ID Range: a - b, with both ends as typed |
| FilterRequests.IdListBlanksCollide | WineDatabaseSystem/src/UI/GenericUIApp.java:298-313 | blanks around the ids change the label but not the predicate, so "1, 2" collides with "1,2" |
| FilterRequests.IdListTrailingComma | WineDatabaseSystem/src/UI/GenericUIApp.java:295 | a trailing comma is silently dropped by the split: "1,2," builds the same predicate as "1,2" |
| FilterRequests.IdRangeTrailingDash | WineDatabaseSystem/src/UI/GenericUIApp.java:276-291 | "5-" splits into one piece and is a range format error |
| FilterRequests.ParseAll | WineDatabaseSystem/src/UI/GenericUIApp.java:299-309 | all tokens parse exactly when each is a valid int, and then each value is its token's |
| Scenarios.IdSingleExample | WineDatabaseSystem/src/UI/GenericUIApp.java:318-322 | "5" gives id = 5 labelled "ID(s): 5" |
| Scenarios.IdRangeExample | WineDatabaseSystem/src/UI/GenericUIApp.java:274-284 | "5-10" gives id BETWEEN 5 AND 10 labelled "ID Range: 5 - 10" |
| Scenarios.IdMalformedRangeExample | WineDatabaseSystem/src/UI/GenericUIApp.java:289-291 | "5-10-3" is a range format error |
| Scenarios.IdLoneCommaExample | WineDatabaseSystem/src/UI/GenericUIApp.java:293-313 | as written, "," splits into no tokens, passes the all-valid loop and builds id IN (), which reads back as no id predicate at all |
| Scenarios.IdLoneCommaRejected | WineDatabaseSystem/src/UI/GenericUIApp.java:293-317 | with the empty list refused, "," is an invalid id list |
| FilterRequests.IdEntryCorrection | WineDatabaseSystem/src/UI/GenericUIApp.java:293-317 | the written and the corrected id filter differ only where the written one builds the unreadable id IN (); there the corrected one reports an invalid list |
| JavaInt.ParseInt | WineDatabaseSystem/src/UI/GenericUIApp.java:838-845 | isValidInteger holds exactly when this yields a value, and a value is always within 32 bits |
| JavaInt.ParseIntJava | WineDatabaseSystem/src/UI/GenericUIApp.java:838-845 | Integer.parseInt's negative accumulation with overflow guards computes exactly ParseInt |
| JavaInt.ParseIntToString | WineDatabaseSystem/src/UI/GenericUIApp.java:171-173 | the decimal text of a 32-bit int parses back to it |
| JavaText.JavaSplitOfJoin | WineDatabaseSystem/src/UI/GenericUIApp.java:276 | splitting two or more joined parts gives them back with trailing empty parts dropped |
| JavaText.TrimStart | WineDatabaseSystem/src/UI/GenericUIApp.java:278-279 | trim's leading half: the result is the suffix of the input after a run of characters up to ' ', and starts with none |
| JavaText.TrimEnd | WineDatabaseSystem/src/UI/GenericUIApp.java:278-279 | trim's trailing half: the result is the prefix of the input before a run of characters up to ' ', and ends with none |
| JavaText.TrimIdempotent | WineDatabaseSystem/src/UI/GenericUIApp.java:278-279 | trimming twice is trimming once |
| SqlText.ReadEscaped | src/database/QueryHandler.java:23-24 | a quote-doubled value followed by a closing quote reads back as exactly the value, and the literal ends at that quote |
| QueryHandler.GetLimitWines | src/database/QueryHandler.java:15 | the query is the base query followed by " LIMIT " and text that parses back to the limit |
| QueryHandler.GetWinesByQuality | src/database/QueryHandler.java:23-24 | after the fixed prefix comes a literal that reads back as exactly the quality and closes at the end of the query |
| QueryHandler.GetWinesByColor | src/database/QueryHandler.java:38 | after the fixed prefix the color is embedded verbatim and reads back as itself when it holds no quote |
| QueryHandler.ColorQuoteEndsLiteral | src/database/QueryHandler.java:38 | a color holding a quote ends the literal early: "ros'e" reads as "ros" followed by stray text |
| QueryHandler.CellText | src/database/QueryHandler.java:67-70 | a null cell is shown as NULL and any other cell as its value |
| QueryHandler.ExecuteQuery | src/database/QueryHandler.java:51-74 | the header is the columns in order 1..columnCount, and there is one line per row in cursor order whose j-th cell is the row's j-th value or NULL; the lines are the store rows' projection |
| QueryHandler.Projection | src/database/QueryHandler.java:64-73 | one line per row in cursor order, each holding one cell per column, the value or NULL |

## Findings

| source | as written | input that shows it | evidently intended | confidence | as-written member | corrected member |
|---|---|---|---|---|---|---|
| WineDatabaseSystem/src/UI/GenericUIApp.java:293-313 | a list input whose split yields no tokens passes the all-valid loop vacuously and builds `id IN ()` | `,` (also `,,`) | refuse the input as an invalid id list, since SQL rejects an empty IN list | medium, not executed | Scenarios.IdLoneCommaExample | Scenarios.IdLoneCommaRejected |

The corrected id filter (`FilterRequests.IdEntry`) is the one the panel model uses. `FilterRequests.IdEntryCorrection` shows that it differs from the written one (`FilterRequests.IdEntryAsWritten`) only on such inputs. `FilterRequests.IdEntryDenotes` proves the intended property for it: an accepted id filter reads back as exactly the ids the input names.

## Left out

- Swing layout, widgets, tags, tooltips, dialogs and repainting are not modelled. The model keeps only the state change and the error a dialog would show.
- The background query run (`runQueryInBackground`, a SwingWorker) is left out, because it is concurrency. `runCustomQuery` is modelled only as what it hands over (`Snapshot`).
- FilterEngine.Snapshot: is not a copy taken when the query is started. The worker's lambda reads `activeFilters` and `limitFilter` only when it runs, and it passes the live list. An add or remove on the event thread before or during the run can therefore change what the executor sees. `Snapshot` is the state as read at that moment.
- FilterEngine.Handle: uses the corrected id filter (`IdEntry`), so it refuses "," with InvalidIdList where the panel's code appends `id IN ()` with the tag "ID(s): ,". `Run` and `RunPreservesValid` therefore describe the corrected panel. The written behaviour is `IdEntryAsWritten`, and `AsWrittenIdRequestPreservesValid` shows it keeps the invariant too.
- `QueryHandler.executeCustomQuery`, which composes the predicates and the limit into one query, is not part of this model. No claim is made about the composed text.
- The date spinners, their `SimpleDateFormat` output and the start/end clamping are left out. Dates are opaque strings, and an empty one means no date.
- `Double.parseDouble`, the `>= 0` test on doubles and the rendering of doubles are left out, because they are floating point. They are the `NumberSyntax` parameter.
- `getWinesByAlcoholRange` is left out, because its text is the rendering of two doubles.
- The JDBC connection, statement and result set are left out, as is the SQLException message. The store's answer is a parameter of `ExecuteQuery`.
- The `"Results:"` heading, the separator line and the `%-20s`/`%-25s` padding of `executeQuery` are left out. The model keeps the cells, not their layout.
- The "Get All Wines" case of `onQuerySelected` is left out, because the combo box never offers it. Its effect, clearing every filter, is the reset button's (`ResetFilters`).
- `System.out.println` logging is left out.
- MySQL's backslash escapes in string literals are not modelled. `SqlText` reads literals under standard SQL quoting only, so a quality ending in a backslash would be read differently by a MySQL server in its default mode.
- The query handler that builds the panel's `QueryResult` is not part of this model. `DisplayOfStore` takes its rows to be projected cell by cell the way `executeQuery` projects them.
- JavaInt.ParseInt: accepts ASCII digits only, while `Character.digit` also accepts other Unicode decimal digits.
- Field values are taken as `getFieldValue` returns them. Its reading of the widgets is not modelled.
- FilterRequests.IdEntry: its own contract states only that its label is never a limit label. What it builds is stated by `IdDispatch` and `IdEntryDenotes` (the meaning). The text is stated by `IdSingleVerbatim`, `IdRangeVerbatim` and `IdListVerbatim` for inputs without blanks, by `IdListBlanksCollide` for padded lists, and by the examples.
- The limit is not required to be positive. The source accepts any int that `Integer.parseInt` reads, and the model follows it (`SetLimitAcceptsAnyInt`).
- When the old limit's tag cannot be found during a limit change, the source reports it and carries on. The model carries on silently.
- The older `src/UI/GenericUIApp.java`, the `Main` classes, `DataLoader`, `DBConnection` and the `Wine` bean are left out. They are bootstrap, loading and UI code outside the filter engine.

=== FILE: filter_engine.dfy ===
/** The filter state of the wine panel and its transitions.

    The state is the ordered list of active filter strings, at most one
    limit, and the map from each tag's display description to its filter
    string. Every transition is a pure function; an error leaves the state
    as it was. Dialogs, tag widgets, repainting and the background query
    run that follows each change are not modelled: `Snapshot` is what such
    a run would hand to the query executor if it read the state at once.
    `Handle` uses the corrected id filter; `AsWrittenIdRequestPreservesValid`
    covers the id filter as the panel's code is written. */
module FilterEngine {
  import opened Wrappers
  import opened JavaText
  import opened JavaInt
  import opened FilterRequests
  import QueryHandler

  datatype FilterState = FilterState(
    activeFilters: seq<string>,      // regular filters, in the order they were added
    limitFilter: Option<string>,     // the limit, as the decimal text of an int
    filterMap: map<string, string>)  // display description -> filter string

  const Initial: FilterState := FilterState([], None, map[])

  /** The description, and filter string, of the limit `v`. */
  function LimitLabel(v: string): string {
    "LIMIT " + v
  }

  predicate IsLimitLabel(description: string) {
    StartsWith(description, LimitMark)
  }

  predicate NoDuplicates(s: seq<string>) {
    forall i, j :: 0 <= i < j < |s| ==> s[i] != s[j]
  }

  /** What every reachable state satisfies: no filter string twice; at most
      one limit tag, which belongs to the current limit and carries its own
      text as filter string; a limit always has its tag; every other tag
      names an active filter, and no two tags name the same one. */
  ghost predicate Valid(st: FilterState) {
    && NoDuplicates(st.activeFilters)
    && (st.limitFilter.Some? ==> IsValidInteger(st.limitFilter.value))
    && (st.limitFilter.Some? ==> LimitLabel(st.limitFilter.value) in st.filterMap)
    && (forall l :: l in st.filterMap && IsLimitLabel(l) ==>
          st.limitFilter.Some? && l == LimitLabel(st.limitFilter.value) && st.filterMap[l] == l)
    && (forall l :: l in st.filterMap && !IsLimitLabel(l) ==> st.filterMap[l] in st.activeFilters)
    && (forall l1, l2 ::
          (l1 in st.filterMap && l2 in st.filterMap && !IsLimitLabel(l1) && !IsLimitLabel(l2)
           && st.filterMap[l1] == st.filterMap[l2]) ==> l1 == l2)
  }

  lemma LimitLabelIsLimit(v: string)
    ensures IsLimitLabel(LimitLabel(v))
  {
    assert LimitLabel(v)[..5] == "LIMIT";
  }

  lemma InitialValid()
    ensures Valid(Initial)
  {
  }

  // ---------------------------------------------------------------------
  //  Java's List.remove(Object)
  // ---------------------------------------------------------------------

  /** The position of the first occurrence of `x` in `s`. */
  function FirstIndex(s: seq<string>, x: string): (i: nat)
    requires x in s
    ensures i < |s| && s[i] == x && x !in s[..i]
  {
    if s[0] == x then 0
    else
      var i := 1 + FirstIndex(s[1..], x);
      assert s[..i] == [s[0]] + s[1..][..i - 1];
      i
  }

  /** The first occurrence of `x` removed, the rest kept in order; no change
      when `x` does not occur. */
  function RemoveFirst(s: seq<string>, x: string): (r: seq<string>)
    ensures x !in s ==> r == s
    ensures x in s ==> r == s[..FirstIndex(s, x)] + s[FirstIndex(s, x) + 1..]
    ensures x in s ==> |r| == |s| - 1
    ensures forall y :: y in r ==> y in s
    ensures forall y :: y in s && y != x ==> y in r
  {
    if |s| == 0 then []
    else if s[0] == x then s[1..]
    else
      var r := [s[0]] + RemoveFirst(s[1..], x);
      assert forall y :: y in s ==> y == s[0] || y in s[1..];
      assert x in s ==> r == s[..FirstIndex(s, x)] + s[FirstIndex(s, x) + 1..] by {
        if x in s { SpliceAfterHead(s, x); }
      }
      r
  }

  /** Cutting out the first `x` past a head that is not `x` keeps the head
      and cuts the first `x` out of the tail. */
  lemma SpliceAfterHead(s: seq<string>, x: string)
    requires x in s && s[0] != x
    ensures x in s[1..]
    ensures var i, j := FirstIndex(s, x), FirstIndex(s[1..], x);
            s[..i] + s[i + 1..] == [s[0]] + (s[1..][..j] + s[1..][j + 1..])
  {
    assert x in s[1..];
    var j := FirstIndex(s[1..], x);
    assert FirstIndex(s, x) == j + 1;
    assert s[..j + 1] == [s[0]] + s[1..][..j];
    assert s[j + 2..] == s[1..][j + 1..];
  }

  // ---------------------------------------------------------------------
  //  Transitions
  // ---------------------------------------------------------------------

  /** Adding a filter: rejected when its filter string is already active
      (whatever its description), otherwise appended after all earlier
      filters, which keep their places; the limit is untouched and the tag
      maps the description to the filter string. */
  function AddFilter(st: FilterState, e: Entry): (r: Result<FilterState, Error>)
    ensures r.Err? <==> e.filter in st.activeFilters
    ensures r.Err? ==> r.error == AlreadyApplied
    ensures r.Ok? ==> |r.value.activeFilters| == |st.activeFilters| + 1
                      && r.value.activeFilters[..|st.activeFilters|] == st.activeFilters
                      && r.value.activeFilters[|st.activeFilters|] == e.filter
    ensures r.Ok? ==> r.value.limitFilter == st.limitFilter
    ensures r.Ok? ==> e.display in r.value.filterMap && r.value.filterMap[e.display] == e.filter
    ensures r.Ok? ==> forall l :: l != e.display ==>
              && (l in r.value.filterMap <==> l in st.filterMap)
              && (l in st.filterMap ==> r.value.filterMap[l] == st.filterMap[l])
  {
    if e.filter in st.activeFilters then Err(AlreadyApplied)
    else Ok(FilterState(st.activeFilters + [e.filter], st.limitFilter, st.filterMap[e.display := e.filter]))
  }

  /** Removing the tag whose display description is `description`: an
      unknown description is an error; a limit tag clears the limit and leaves the filters alone; any
      other tag removes its filter string from the active filters. Either
      way the description leaves the map and every other tag stays. */
  function RemoveFilter(st: FilterState, description: string): (r: Result<FilterState, Error>)
    ensures r.Err? <==> description !in st.filterMap
    ensures r.Err? ==> r.error == NotFound
    ensures r.Ok? ==> r.value.filterMap == st.filterMap - {description}
    ensures r.Ok? && IsLimitLabel(description) ==>
              r.value.limitFilter.None? && r.value.activeFilters == st.activeFilters
    ensures r.Ok? && !IsLimitLabel(description) ==>
              r.value.limitFilter == st.limitFilter
              && r.value.activeFilters == RemoveFirst(st.activeFilters, st.filterMap[description])
  {
    if description !in st.filterMap then Err(NotFound)
    else if IsLimitLabel(description) then Ok(FilterState(st.activeFilters, None, st.filterMap - {description}))
    else Ok(FilterState(RemoveFirst(st.activeFilters, st.filterMap[description]), st.limitFilter, st.filterMap - {description}))
  }

  /** Setting the limit from the limit field: an empty field or one that
      `Integer.parseInt` rejects is an error; otherwise the old limit's tag
      is removed first (a failure to find it is reported and ignored, as the
      source does), then the new limit and its tag are set. The regular
      filters never change. */
  function SetLimit(st: FilterState, limitField: string): (r: Result<FilterState, Error>)
    ensures r.Err? <==> limitField == "" || !IsValidInteger(limitField)
    ensures r.Err? ==> r.error == (if limitField == "" then MissingInput else NotAnInteger)
    ensures r.Ok? ==> r.value.activeFilters == st.activeFilters
    ensures r.Ok? ==> r.value.limitFilter == Some(IntToString(ParseInt(limitField).value))
  {
    if limitField == "" then Err(MissingInput)
    else
      var parsed := ParseInt(limitField);
      if parsed.None? then Err(NotAnInteger)
      else
        var cleared :=
          if st.limitFilter.None? then st
          else
            var removed := RemoveFilter(st, LimitLabel(st.limitFilter.value));
            if removed.Ok? then removed.value else st;
        var v := IntToString(parsed.value);
        Ok(FilterState(cleared.activeFilters, Some(v), cleared.filterMap[LimitLabel(v) := LimitLabel(v)]))
  }

  /** `resetFilters` with `clearActiveFiltersDisplay`: no filters, no limit,
      no tags, from whatever state. */
  function ResetFilters(st: FilterState): (r: FilterState)
    ensures r.activeFilters == [] && r.limitFilter.None? && r.filterMap == map[]
  {
    Initial
  }

  // ---------------------------------------------------------------------
  //  The invariant is kept by every transition
  // ---------------------------------------------------------------------

  /** Removing the first occurrence from a list without duplicates removes
      the element altogether and keeps every other element and the absence
      of duplicates. */
  lemma {:induction false} RemoveFirstKeeps(s: seq<string>, x: string)
    requires NoDuplicates(s)
    ensures NoDuplicates(RemoveFirst(s, x))
    ensures x !in RemoveFirst(s, x)
  {
    if |s| == 0 {
    } else if s[0] == x {
      assert forall k :: 1 <= k < |s| ==> s[k] != s[0];
    } else {
      var tail := s[1..];
      assert forall i :: 0 <= i < |tail| ==> tail[i] == s[i + 1];
      RemoveFirstKeeps(tail, x);
      var rest := RemoveFirst(tail, x);
      assert s[0] !in tail;
      assert s[0] !in rest;
      assert RemoveFirst(s, x) == [s[0]] + rest;
      NoDuplicatesCons(s[0], rest);
    }
  }

  /** A new head in front of a list without duplicates adds none. */
  lemma NoDuplicatesCons(h: string, t: seq<string>)
    requires NoDuplicates(t) && h !in t
    ensures NoDuplicates([h] + t)
  {
    var s := [h] + t;
    forall i, j | 0 <= i < j < |s|
      ensures s[i] != s[j]
    {
      assert s[j] == t[j - 1];
      if i > 0 { assert s[i] == t[i - 1]; }
    }
  }

  /** Removing an element just appended gives back the list before. */
  lemma {:induction false} RemoveFirstAppended(s: seq<string>, x: string)
    requires x !in s
    ensures RemoveFirst(s + [x], x) == s
  {
    if |s| > 0 {
      assert (s + [x])[1..] == s[1..] + [x];
      RemoveFirstAppended(s[1..], x);
      assert s == [s[0]] + s[1..];
    }
  }

  lemma AddPreservesValid(st: FilterState, e: Entry)
    requires Valid(st) && !IsLimitLabel(e.display) && AddFilter(st, e).Ok?
    ensures Valid(AddFilter(st, e).value)
  {
    var r := AddFilter(st, e).value;
    assert r.activeFilters == st.activeFilters + [e.filter];
    forall l | l in r.filterMap && !IsLimitLabel(l) ensures r.filterMap[l] in r.activeFilters {
      if l != e.display {
        assert r.filterMap[l] == st.filterMap[l];
      }
    }
  }

  lemma RemovePreservesValid(st: FilterState, description: string)
    requires Valid(st) && RemoveFilter(st, description).Ok?
    ensures Valid(RemoveFilter(st, description).value)
  {
    var r := RemoveFilter(st, description).value;
    if !IsLimitLabel(description) {
      var x := st.filterMap[description];
      RemoveFirstKeeps(st.activeFilters, x);
      forall l | l in r.filterMap && !IsLimitLabel(l) ensures r.filterMap[l] in r.activeFilters {
        assert st.filterMap[l] != x;
      }
    }
  }

  /** A limit typed in canonical form (unsigned digits, no leading zero,
      within 32 bits) is stored exactly as typed; any other accepted
      spelling is stored as `String.valueOf` renders its value. */
  lemma CanonicalLimitStoredVerbatim(st: FilterState, limit: string)
    requires |limit| >= 1 && AllDigits(limit) && (limit[0] != '0' || |limit| == 1)
    requires DigitsValue(limit) <= MaxInt
    ensures SetLimit(st, limit).Ok? && SetLimit(st, limit).value.limitFilter == Some(limit)
  {
    assert limit[0] != '-' && limit[0] != '+' by { assert IsDigit(limit[0]); }
    assert ParseInt(limit) == Some(DigitsValue(limit));
    IntToStringDigits(limit);
  }

  lemma SetLimitPreservesValid(st: FilterState, limitField: string)
    requires Valid(st) && SetLimit(st, limitField).Ok?
    ensures Valid(SetLimit(st, limitField).value)
  {
    var n := ParseInt(limitField).value;
    ParseIntToString(n);
    LimitLabelIsLimit(IntToString(n));
    if st.limitFilter.Some? {
      LimitLabelIsLimit(st.limitFilter.value);
      RemovePreservesValid(st, LimitLabel(st.limitFilter.value));
    }
  }

  /** The limit tags of a state. */
  function LimitTags(st: FilterState): set<string> {
    set l | l in st.filterMap && IsLimitLabel(l)
  }

  /** After a limit is set there is exactly one limit tag, the new limit's;
      the regular filters and their tags are exactly as before. */
  lemma SetLimitReplaces(st: FilterState, limitField: string)
    requires Valid(st) && SetLimit(st, limitField).Ok?
    ensures var r := SetLimit(st, limitField).value;
      && LimitTags(r) == {LimitLabel(r.limitFilter.value)}
      && r.activeFilters == st.activeFilters
      && (forall l :: !IsLimitLabel(l) ==> (l in r.filterMap <==> l in st.filterMap))
      && (forall l :: l in st.filterMap && !IsLimitLabel(l) ==> r.filterMap[l] == st.filterMap[l])
  {
    SetLimitPreservesValid(st, limitField);
    var r := SetLimit(st, limitField).value;
    LimitLabelIsLimit(r.limitFilter.value);
    if st.limitFilter.Some? {
      LimitLabelIsLimit(st.limitFilter.value);
    }
  }

  /** Any int the limit field spells in decimal is accepted as the limit,
      zero and negative ones included: nothing checks that it is positive. */
  lemma SetLimitAcceptsAnyInt(st: FilterState, n: int)
    requires InInt32(n)
    ensures SetLimit(st, IntToString(n)).Ok?
    ensures SetLimit(st, IntToString(n)).value.limitFilter == Some(IntToString(n))
  {
    ParseIntToString(n);
  }

  /** A filter added and then removed by its description leaves the filters
      and the limit as they were; the tags too, unless the description was
      already on a tag that the add overwrote. */
  lemma AddThenRemove(st: FilterState, e: Entry)
    requires Valid(st) && !IsLimitLabel(e.display) && AddFilter(st, e).Ok?
    ensures RemoveFilter(AddFilter(st, e).value, e.display)
              == Ok(FilterState(st.activeFilters, st.limitFilter, st.filterMap - {e.display}))
    ensures e.display !in st.filterMap ==> RemoveFilter(AddFilter(st, e).value, e.display) == Ok(st)
  {
    var st1 := AddFilter(st, e).value;
    RemoveFirstAppended(st.activeFilters, e.filter);
    assert st1.filterMap - {e.display} == st.filterMap - {e.display};
    if e.display !in st.filterMap {
      assert st.filterMap - {e.display} == st.filterMap;
    }
  }

  /** Removing a regular tag makes its filter string available to a later
      add again. */
  lemma RemoveFreesFilter(st: FilterState, description: string)
    requires Valid(st) && description in st.filterMap && !IsLimitLabel(description)
    ensures AddFilter(RemoveFilter(st, description).value, Entry(st.filterMap[description], description)).Ok?
  {
    RemoveFirstKeeps(st.activeFilters, st.filterMap[description]);
  }

  /** A second add of the same filter string fails, whatever its
      description, and the state it was tried on is unchanged. */
  lemma DuplicateRejected(st: FilterState, e: Entry, again: Entry)
    requires AddFilter(st, e).Ok? && again.filter == e.filter
    ensures AddFilter(AddFilter(st, e).value, again) == Err(AlreadyApplied)
  {
    assert AddFilter(st, e).value.activeFilters[|st.activeFilters|] == e.filter;
  }

  /** Reset gives the initial state, which is valid, and resetting again
      changes nothing. */
  lemma ResetIdempotent(st: FilterState)
    ensures ResetFilters(ResetFilters(st)) == ResetFilters(st) == Initial
    ensures Valid(ResetFilters(st))
  {
    InitialValid();
  }

  // ---------------------------------------------------------------------
  //  Requests from the panel
  // ---------------------------------------------------------------------

  /** One user action: a query chosen in the combo box and executed with the
      values of its input fields, a click on a tag's remove button, or the
      reset button. */
  datatype Request =
    | GetLimitWines(limit: string)
    | ByQuality(quality: string)
    | ByAlcoholRange(minAlcohol: string, maxAlcohol: string)
    | ByColor(color: string)
    | ById(ids: string)
    | ByDateRange(startDate: string, endDate: string)
    | ByPhRange(minPh: string, maxPh: string)
    | RemoveTag(tag: string)
    | ResetButton

  /** The new state and, when the action was refused, the error dialog. */
  datatype Step = Step(state: FilterState, error: Option<Error>)

  function Outcome(st: FilterState, r: Result<FilterState, Error>): (s: Step)
    ensures r.Ok? ==> s == Step(r.value, None)
    ensures r.Err? ==> s == Step(st, Some(r.error))
  {
    if r.Ok? then Step(r.value, None) else Step(st, Some(r.error))
  }

  /** A filter request: translated, then added unless already active. */
  function AddRequest(st: FilterState, e: Result<Entry, Error>): Result<FilterState, Error> {
    if e.Err? then Err(e.error) else AddFilter(st, e.value)
  }

  /** What a filter request whose translation is `e` does: it is refused
      exactly when the translation failed (with the translation's error) or
      its predicate is already active (AlreadyApplied), and otherwise the
      predicate is appended, its label tags it, and the limit stays. */
  predicate AddedBy(st: FilterState, s: Step, e: Result<Entry, Error>) {
    && (s.error.None? <==> e.Ok? && e.value.filter !in st.activeFilters)
    && (s.error.Some? ==> s.state == st && s.error.value == (if e.Err? then e.error else AlreadyApplied))
    && (s.error.None? ==>
          && s.state.activeFilters == st.activeFilters + [e.value.filter]
          && s.state.limitFilter == st.limitFilter
          && s.state.filterMap == st.filterMap[e.value.display := e.value.filter])
  }

  /** The step a filter request takes once translated. */
  function FilterStep(st: FilterState, e: Result<Entry, Error>): (s: Step)
    ensures AddedBy(st, s, e)
  {
    var r := AddRequest(st, e);
    assert r.Ok? ==> r.value.activeFilters == st.activeFilters + [e.value.filter] by {
      if r.Ok? {
        assert r.value.activeFilters[..|st.activeFilters|] == st.activeFilters;
      }
    }
    Outcome(st, r)
  }

  /** `onQuerySelected` with the execute button pressed, the tag's remove
      button, and the reset button. A refused action leaves the state as it
      was. */
  function Handle<D>(st: FilterState, req: Request, num: NumberSyntax<D>): (s: Step)
    ensures s.error.Some? ==> s.state == st
    ensures s.error.None? && (req.ByQuality? || req.ByAlcoholRange? || req.ByColor? || req.ById?
                              || req.ByDateRange? || req.ByPhRange?) ==>
              s.state.limitFilter == st.limitFilter
              && |s.state.activeFilters| == |st.activeFilters| + 1
              && s.state.activeFilters[..|st.activeFilters|] == st.activeFilters
    ensures req.ResetButton? ==> s == Step(Initial, None)
    ensures req.RemoveTag? ==> (s.error.None? <==> req.tag in st.filterMap)
    ensures req.RemoveTag? && s.error.Some? ==> s.error == Some(NotFound)
    ensures req.RemoveTag? && s.error.None? ==>
              && s.state.filterMap == st.filterMap - {req.tag}
              && (IsLimitLabel(req.tag) ==> s.state.limitFilter.None? && s.state.activeFilters == st.activeFilters)
              && (!IsLimitLabel(req.tag) ==>
                    s.state.activeFilters == RemoveFirst(st.activeFilters, st.filterMap[req.tag]))
    ensures req.GetLimitWines? ==> (s.error.None? <==> req.limit != "" && IsValidInteger(req.limit))
    ensures req.GetLimitWines? && s.error.None? ==>
              && s.state.activeFilters == st.activeFilters
              && s.state.limitFilter.Some?
              && ParseInt(s.state.limitFilter.value) == ParseInt(req.limit)
    ensures req.ByQuality? ==> AddedBy(st, s, QualityEntry(req.quality))
    ensures req.ByAlcoholRange? ==> AddedBy(st, s, AlcoholEntry(req.minAlcohol, req.maxAlcohol, num))
    ensures req.ByColor? ==> AddedBy(st, s, ColorEntry(req.color))
    ensures req.ById? ==> AddedBy(st, s, IdEntry(req.ids))
    ensures req.ByDateRange? ==> AddedBy(st, s, DateEntry(req.startDate, req.endDate))
    ensures req.ByPhRange? ==> AddedBy(st, s, PhEntry(req.minPh, req.maxPh, num))
  {
    match req
    case ResetButton => Step(ResetFilters(st), None)
    case GetLimitWines(limit) =>
      var r := SetLimit(st, limit);
      assert r.Ok? ==> ParseInt(r.value.limitFilter.value) == ParseInt(limit) by {
        if r.Ok? { ParseIntToString(ParseInt(limit).value); }
      }
      Outcome(st, r)
    case RemoveTag(tag) => Outcome(st, RemoveFilter(st, tag))
    case ByQuality(quality) => FilterStep(st, QualityEntry(quality))
    case ByAlcoholRange(minAlcohol, maxAlcohol) => FilterStep(st, AlcoholEntry(minAlcohol, maxAlcohol, num))
    case ByColor(color) => FilterStep(st, ColorEntry(color))
    case ById(ids) => FilterStep(st, IdEntry(ids))
    case ByDateRange(startDate, endDate) => FilterStep(st, DateEntry(startDate, endDate))
    case ByPhRange(minPh, maxPh) => FilterStep(st, PhEntry(minPh, maxPh, num))
  }

  /** Every action keeps the invariant, so it holds in every state the
      panel can reach from its initial state. */
  lemma HandlePreservesValid<D>(st: FilterState, req: Request, num: NumberSyntax<D>)
    requires Valid(st)
    ensures Valid(Handle(st, req, num).state)
  {
    match req
    case ResetButton =>
    case GetLimitWines(limit) =>
      if SetLimit(st, limit).Ok? { SetLimitPreservesValid(st, limit); }
    case RemoveTag(tag) =>
      if RemoveFilter(st, tag).Ok? { RemovePreservesValid(st, tag); }
    case ByQuality(quality) => AddRequestPreservesValid(st, QualityEntry(quality));
    case ByAlcoholRange(minAlcohol, maxAlcohol) => AddRequestPreservesValid(st, AlcoholEntry(minAlcohol, maxAlcohol, num));
    case ByColor(color) => AddRequestPreservesValid(st, ColorEntry(color));
    case ById(ids) => AddRequestPreservesValid(st, IdEntry(ids));
    case ByDateRange(startDate, endDate) => AddRequestPreservesValid(st, DateEntry(startDate, endDate));
    case ByPhRange(minPh, maxPh) => AddRequestPreservesValid(st, PhEntry(minPh, maxPh, num));
  }

  lemma AddRequestPreservesValid(st: FilterState, e: Result<Entry, Error>)
    requires Valid(st)
    requires e.Ok? ==> !IsLimitLabel(e.value.display)
    ensures Valid(Outcome(st, AddRequest(st, e)).state)
  {
    if e.Ok? && AddFilter(st, e.value).Ok? {
      AddPreservesValid(st, e.value);
    }
  }

  /** The id request as the panel's code is written, which accepts a lone
      comma as `id IN ()`, keeps the invariant too: the empty list is a bad
      query, not a broken filter state. */
  lemma AsWrittenIdRequestPreservesValid(st: FilterState, ids: string)
    requires Valid(st)
    ensures Valid(Outcome(st, AddRequest(st, IdEntryAsWritten(ids))).state)
  {
    AddRequestPreservesValid(st, IdEntryAsWritten(ids));
  }

  /** The states reachable from the initial one by a sequence of actions. */
  function Run<D>(st: FilterState, reqs: seq<Request>, num: NumberSyntax<D>): FilterState
    decreases |reqs|
  {
    if |reqs| == 0 then st else Run(Handle(st, reqs[0], num).state, reqs[1..], num)
  }

  /** No sequence of actions leads to a state with a duplicate filter or two
      limits. */
  lemma {:induction false} RunPreservesValid<D>(st: FilterState, reqs: seq<Request>, num: NumberSyntax<D>)
    requires Valid(st)
    ensures Valid(Run(st, reqs, num))
    decreases |reqs|
  {
    if |reqs| > 0 {
      HandlePreservesValid(st, reqs[0], num);
      RunPreservesValid(Handle(st, reqs[0], num).state, reqs[1..], num);
    }
  }

  // ---------------------------------------------------------------------
  //  What a query run is given
  // ---------------------------------------------------------------------

  /** `runCustomQuery`'s arguments to the executor: the base query, the
      active filters in insertion order, and the limit. How the executor
      composes them is not part of this model. */
  datatype CustomQuery = CustomQuery(baseQuery: string, filters: seq<string>, limit: Option<string>)

  function Snapshot(st: FilterState): (q: CustomQuery)
    ensures q.baseQuery == QueryHandler.AllWinesQuery
    ensures q.filters == st.activeFilters && q.limit == st.limitFilter
  {
    CustomQuery("SELECT * FROM wine_table", st.activeFilters, st.limitFilter)
  }

  /** After the reset button the executor is handed the base query alone:
      no predicate and no limit. */
  lemma SnapshotAfterReset<D>(st: FilterState, num: NumberSyntax<D>)
    ensures Snapshot(Handle(st, ResetButton, num).state) == CustomQuery(QueryHandler.AllWinesQuery, [], None)
  {
  }

  /** Two filters added one after the other reach the executor in the
      order they were added, after those already active, with the limit
      and the base query untouched. */
  lemma SnapshotInInsertionOrder(st: FilterState, a: Entry, b: Entry)
    requires AddFilter(st, a).Ok? && AddFilter(AddFilter(st, a).value, b).Ok?
    ensures var q := Snapshot(AddFilter(AddFilter(st, a).value, b).value);
            && q.filters == Snapshot(st).filters + [a.filter, b.filter]
            && q.limit == Snapshot(st).limit
            && q.baseQuery == Snapshot(st).baseQuery
  {
    var mid := AddFilter(st, a).value;
    var last := AddFilter(mid, b).value;
    assert mid.activeFilters == st.activeFilters + [a.filter];
    assert last.activeFilters == mid.activeFilters + [b.filter];
  }

  /** The result the executor hands back: column names and rows of cell
      text, in the executor's order. */
  datatype QueryResult = QueryResult(columnNames: seq<string>, data: seq<seq<string>>)

  /** What `displayQueryResults` puts on screen: the table's columns and
      rows, the count in the "Wines displayed" label, and whether the "No
      wines found" notice is raised. */
  datatype Display = Display(columns: seq<string>, rows: seq<seq<string>>, count: nat, noRowsNotice: bool)

  /** The table shows the result as it is, the count is the number of rows,
      and the notice is raised exactly when there are none; an empty result
      is still displayed, not refused. */
  function DisplayQueryResults(result: QueryResult): (d: Display)
    ensures d.columns == result.columnNames && d.rows == result.data
    ensures d.count == |result.data|
    ensures d.noRowsNotice <==> result.data == []
  {
    var rowCount := |result.data|;
    Display(result.columnNames, result.data, rowCount, rowCount == 0)
  }

  /** Displaying what the store answered, projected cell by cell as the
      executor does: the table holds every row's text, the count is the
      number of rows the store returned, and the notice is raised exactly
      when it returned none. */
  lemma DisplayOfStore(res: QueryHandler.StoreResult)
    requires QueryHandler.WellShaped(res)
    ensures var d := DisplayQueryResults(QueryResult(res.columns, QueryHandler.Projection(res)));
            && d.columns == res.columns
            && d.count == |res.rows|
            && (d.noRowsNotice <==> res.rows == [])
            && |d.rows| == |res.rows|
            && forall i, j :: 0 <= i < |res.rows| && 0 <= j < |res.columns| ==>
                 d.rows[i][j] == QueryHandler.CellText(res.rows[i][j])
  {
  }

  /** The panel's quality predicate is exactly the WHERE clause that
      `getWinesByQuality` builds for the same quality. */
  lemma PanelQualityMatchesHandler(quality: string)
    requires quality != ""
    ensures QualityEntry(quality).Ok?
    ensures QueryHandler.GetWinesByQuality(quality)
            == QueryHandler.AllWinesQuery + " WHERE " + QualityEntry(quality).value.filter
  {
    assert QueryHandler.QualityPrefix == QueryHandler.AllWinesQuery + " WHERE " + QualityColumn;
  }

  /** The panel escapes the color and `getWinesByColor` does not, so the two
      agree exactly on colors without a quote, such as every color the
      drop-down offers. */
  lemma PanelColorMatchesHandler(color: string)
    requires color != "" && SqlText.Quote !in color
    ensures ColorEntry(color).Ok?
    ensures QueryHandler.GetWinesByColor(color)
            == QueryHandler.AllWinesQuery + " WHERE " + ColorEntry(color).value.filter
  {
    assert QueryHandler.ColorPrefix == QueryHandler.AllWinesQuery + " WHERE " + ColorColumn;
  }

  lemma DropDownsMatchHandler()
    ensures forall k :: 0 <= k < |QualityValues| ==>
              QualityEntry(QualityValues[k]).Ok?
              && QueryHandler.GetWinesByQuality(QualityValues[k])
                 == QueryHandler.AllWinesQuery + " WHERE " + QualityEntry(QualityValues[k]).value.filter
    ensures forall k :: 0 <= k < |ColorValues| ==>
              ColorEntry(ColorValues[k]).Ok?
              && QueryHandler.GetWinesByColor(ColorValues[k])
                 == QueryHandler.AllWinesQuery + " WHERE " + ColorEntry(ColorValues[k]).value.filter
  {
    forall k | 0 <= k < |QualityValues|
      ensures QualityEntry(QualityValues[k]).Ok?
      ensures QueryHandler.GetWinesByQuality(QualityValues[k])
              == QueryHandler.AllWinesQuery + " WHERE " + QualityEntry(QualityValues[k]).value.filter
    {
      PanelQualityMatchesHandler(QualityValues[k]);
    }
    forall k | 0 <= k < |ColorValues|
      ensures ColorEntry(ColorValues[k]).Ok?
      ensures QueryHandler.GetWinesByColor(ColorValues[k])
              == QueryHandler.AllWinesQuery + " WHERE " + ColorEntry(ColorValues[k]).value.filter
    {
      assert ColorValues[0] == "red" && ColorValues[1] == "white";
      PanelColorMatchesHandler(ColorValues[k]);
    }
  }
}

=== FILE: filter_requests.dfy ===
/** Translation of one filter request, as the panel reads it from its input
    fields, into a SQL predicate string and the label shown on the filter's
    tag, or into the error the panel reports in a dialog.

    Text fields reach this module already trimmed; the quality and color
    come from drop-downs. Alcohol and pH bounds are Java doubles: their
    parsing, their sign test and their decimal rendering are taken as a
    `NumberSyntax` parameter rather than modelled. */
module FilterRequests {
  import opened Wrappers
  import opened JavaText
  import opened JavaInt
  import opened SqlText

  /** A filter string (a SQL predicate) with its display description, the
      label on the filter's tag. */
  datatype Entry = Entry(filter: string, display: string)

  /** The error dialogs of the filter panel, one per kind of message. */
  datatype Error =
    | MissingInput     // "Please enter a limit value.", "Please select a quality.", ...
    | NotAnInteger     // "Limit must be a valid integer."
    | NotANumber       // "Alcohol values must be valid numbers.", "pH values must be ..."
    | BadRangeFormat   // "Invalid range format. Use format x-y (e.g., 2-7)."
    | InvalidIdRange   // "Invalid ID range. Please enter valid integers."
    | InvalidIdList    // "Invalid ID format. Please enter valid integers separated by commas."
    | InvalidId        // "Invalid ID format. Please enter a valid integer."
    | AlreadyApplied   // "This ... filter is already applied."
    | NotFound         // "Filter not found."

  /** The label prefix that marks the limit's tag. */
  const LimitMark: string := "LIMIT"

  // ---------------------------------------------------------------------
  //  Quality and color
  // ---------------------------------------------------------------------

  const QualityValues: seq<string> := ["neutral", "slightly dissatisfied", "moderately dissatisfied",
                                       "slightly satisfied", "moderately satisfied"]
  const ColorValues: seq<string> := ["red", "white"]

  const QualityColumn: string := "quality = '"
  const ColorColumn: string := "color = '"

  /** The quality filter: the value is embedded with its quotes doubled, so
      the literal reads back as exactly the selected quality. */
  function QualityEntry(quality: string): (r: Result<Entry, Error>)
    ensures r.Err? <==> quality == ""
    ensures r.Err? ==> r.error == MissingInput
    ensures r.Ok? ==> r.value.display == "Quality: " + quality && !StartsWith(r.value.display, LimitMark)
    ensures r.Ok? ==> StartsWith(r.value.filter, QualityColumn)
                      && ReadLiteral(r.value.filter[|QualityColumn|..]) == Some((quality, ""))
  {
    if quality == "" then Err(MissingInput)
    else
      var p := QualityColumn + EscapeQuotes(quality) + "'";
      assert p[|QualityColumn|..] == EscapeQuotes(quality) + [Quote] + "";
      ReadEscaped(quality, "");
      NotLimitByFirst("Quality: " + quality);
      Ok(Entry(p, "Quality: " + quality))
  }

  /** The color filter; unlike the query handler, the panel doubles quotes
      in the color too. */
  function ColorEntry(color: string): (r: Result<Entry, Error>)
    ensures r.Err? <==> color == ""
    ensures r.Err? ==> r.error == MissingInput
    ensures r.Ok? ==> r.value.display == "Color: " + color && !StartsWith(r.value.display, LimitMark)
    ensures r.Ok? ==> StartsWith(r.value.filter, ColorColumn)
                      && ReadLiteral(r.value.filter[|ColorColumn|..]) == Some((color, ""))
  {
    if color == "" then Err(MissingInput)
    else
      var p := ColorColumn + EscapeQuotes(color) + "'";
      assert p[|ColorColumn|..] == EscapeQuotes(color) + [Quote] + "";
      ReadEscaped(color, "");
      NotLimitByFirst("Color: " + color);
      Ok(Entry(p, "Color: " + color))
  }

  // ---------------------------------------------------------------------
  //  Range filters: alcohol, pH and date
  // ---------------------------------------------------------------------

  /** Java's double handling, left uninterpreted: `parse` is
      `Double.parseDouble` (None where it throws), `nonNegative` is the
      `>= 0` test and `show` is the string concatenation of a double. */
  datatype NumberSyntax<!D> = NumberSyntax(parse: string -> Option<D>, nonNegative: D -> bool, show: D -> string)

  /** The predicate and label for the bounds that count as present. Neither
      present gives the empty predicate and the empty label: the source
      initialises both to "" and has no branch for that case. */
  function RangeEntry(column: string, name: string, lo: Option<string>, hi: Option<string>): (e: Entry)
    ensures lo.None? && hi.None? <==> e == Entry("", "")
  {
    if lo.Some? && hi.Some? then
      Entry(column + " BETWEEN " + lo.value + " AND " + hi.value, name + ": " + lo.value + " - " + hi.value)
    else if lo.Some? then
      Entry(column + " >= " + lo.value, name + " >= " + lo.value)
    else if hi.Some? then
      Entry(column + " <= " + hi.value, name + " <= " + hi.value)
    else Entry("", "")
  }

  /** A numeric field: None when it does not parse, Some(None) when it is
      empty (the source's -1 sentinel), Some(Some(d)) otherwise. */
  function ReadBound<D>(field: string, num: NumberSyntax<D>): Option<Option<D>> {
    if field == "" then Some(None)
    else if num.parse(field).None? then None
    else Some(Some(num.parse(field).value))
  }

  /** A bound counts only when it parsed to a value that is `>= 0`. */
  function Present<D>(bound: Option<D>, num: NumberSyntax<D>): Option<string> {
    if bound.Some? && num.nonNegative(bound.value) then Some(num.show(bound.value)) else None
  }

  /** True when the field holds a number that counts as a bound. */
  predicate Given<D>(field: string, num: NumberSyntax<D>) {
    field != "" && num.parse(field).Some? && num.nonNegative(num.parse(field).value)
  }

  /** A numeric range filter, in the three shapes of the source, stated on
      the raw fields: both fields empty is an error; a field that does not
      parse is an error; otherwise the bounds that parsed to a value `>= 0`
      decide between BETWEEN, `>=` and `<=`, and label and predicate take
      the same shape. */
  function NumericRangeEntry<D>(column: string, name: string, minField: string, maxField: string,
                                num: NumberSyntax<D>): (r: Result<Entry, Error>)
    ensures minField == "" && maxField == "" ==> r == Err(MissingInput)
    ensures r.Ok? <==> (minField != "" || maxField != "")
                       && (minField == "" || num.parse(minField).Some?)
                       && (maxField == "" || num.parse(maxField).Some?)
    ensures r.Err? && (minField != "" || maxField != "") ==> r.error == NotANumber
    ensures r.Ok? && Given(minField, num) && Given(maxField, num) ==>
              var lo, hi := num.show(num.parse(minField).value), num.show(num.parse(maxField).value);
              r.value == Entry(column + " BETWEEN " + lo + " AND " + hi, name + ": " + lo + " - " + hi)
    ensures r.Ok? && Given(minField, num) && !Given(maxField, num) ==>
              var lo := num.show(num.parse(minField).value);
              r.value == Entry(column + " >= " + lo, name + " >= " + lo)
    ensures r.Ok? && !Given(minField, num) && Given(maxField, num) ==>
              var hi := num.show(num.parse(maxField).value);
              r.value == Entry(column + " <= " + hi, name + " <= " + hi)
    ensures r.Ok? && !Given(minField, num) && !Given(maxField, num) ==> r.value == Entry("", "")
  {
    if minField == "" && maxField == "" then Err(MissingInput)
    else
      var lo := ReadBound(minField, num);
      var hi := ReadBound(maxField, num);
      if lo.None? || hi.None? then Err(NotANumber)
      else Ok(RangeEntry(column, name, Present(lo.value, num), Present(hi.value, num)))
  }

  /** The alcohol filter; its label is never the limit's tag. */
  function AlcoholEntry<D>(minField: string, maxField: string, num: NumberSyntax<D>): (r: Result<Entry, Error>)
    ensures r.Ok? ==> !StartsWith(r.value.display, LimitMark)
  {
    var r := NumericRangeEntry("alcohol", "Alcohol", minField, maxField, num);
    assert r.Ok? ==> r.value.display == "" || r.value.display[0] == 'A';
    r
  }

  /** The pH filter; its label is never the limit's tag. */
  function PhEntry<D>(minField: string, maxField: string, num: NumberSyntax<D>): (r: Result<Entry, Error>)
    ensures r.Ok? ==> !StartsWith(r.value.display, LimitMark)
  {
    var r := NumericRangeEntry("`pH`", "pH", minField, maxField, num);
    assert r.Ok? ==> r.value.display == "" || r.value.display[0] == 'p';
    r
  }

  /** The date filter. Dates are opaque `yyyy-MM-dd` strings, embedded in
      quotes without escaping; an empty string means no date. */
  function DateEntry(startDate: string, endDate: string): (r: Result<Entry, Error>)
    ensures r.Err? <==> startDate == "" && endDate == ""
    ensures r.Ok? ==> !StartsWith(r.value.display, LimitMark)
    ensures r.Err? ==> r.error == MissingInput
    ensures r.Ok? && startDate != "" && endDate != "" ==>
              r.value == Entry("`date` BETWEEN '" + startDate + "' AND '" + endDate + "'",
                               "Date: " + startDate + " - " + endDate)
    ensures r.Ok? && startDate != "" && endDate == "" ==>
              r.value == Entry("`date` >= '" + startDate + "'", "Date >= " + startDate)
    ensures r.Ok? && startDate == "" && endDate != "" ==>
              r.value == Entry("`date` <= '" + endDate + "'", "Date <= " + endDate)
  {
    if startDate == "" && endDate == "" then Err(MissingInput)
    else if startDate != "" && endDate != "" then
      var d := "Date: " + startDate + " - " + endDate;
      NotLimitByFirst(d);
      Ok(Entry("`date` BETWEEN '" + startDate + "' AND '" + endDate + "'", d))
    else if startDate != "" then
      var d := "Date >= " + startDate;
      NotLimitByFirst(d);
      Ok(Entry("`date` >= '" + startDate + "'", d))
    else
      var d := "Date <= " + endDate;
      NotLimitByFirst(d);
      Ok(Entry("`date` <= '" + endDate + "'", d))
  }

  // ---------------------------------------------------------------------
  //  Id filter
  // ---------------------------------------------------------------------

  function TrimAll(parts: seq<string>): (r: seq<string>)
    ensures |r| == |parts| && forall k :: 0 <= k < |r| ==> r[k] == Trim(parts[k])
  {
    seq(|parts|, k requires 0 <= k < |parts| => Trim(parts[k]))
  }

  predicate AllValid(tokens: seq<string>) {
    forall k :: 0 <= k < |tokens| ==> IsValidInteger(tokens[k])
  }

  /** The id filter: a `-` anywhere makes it a range, otherwise a `,` makes
      it a list, otherwise it is a single id. Tokens are trimmed and must be
      ints as `Integer.parseInt` reads them; they are embedded as typed.
      A list with no tokens at all is refused (see `IdEntryAsWritten`). */
  function IdEntry(ids: string): (r: Result<Entry, Error>)
    ensures r.Ok? ==> !StartsWith(r.value.display, LimitMark)
  {
    if ids == "" then Err(MissingInput)
    else if '-' in ids then IdRangeEntry(ids)
    else if ',' in ids then IdListEntry(ids)
    else IdSingleEntry(ids)
  }

  /** The id filter as the panel's code is written: a list input that
      splits into no tokens, such as `,`, passes the all-valid loop without
      checking anything and builds `id IN ()`, which SQL does not accept. */
  function IdEntryAsWritten(ids: string): (r: Result<Entry, Error>)
    ensures r.Ok? ==> !StartsWith(r.value.display, LimitMark)
  {
    if ids == "" then Err(MissingInput)
    else if '-' in ids then IdRangeEntry(ids)
    else if ',' in ids then IdListEntryAsWritten(ids)
    else IdSingleEntry(ids)
  }

  /** The two id filters differ only on a list input with no tokens: the
      written one builds the empty `id IN ()`, the corrected one refuses it. */
  lemma IdEntryCorrection(ids: string)
    ensures IdEntry(ids) != IdEntryAsWritten(ids) ==>
              && IdEntry(ids) == Err(InvalidIdList)
              && IdEntryAsWritten(ids) == Ok(Entry("id IN ()", "ID(s): " + ids))
              && ReadIdPredicate("id IN ()") == None
  {
    if IdEntry(ids) != IdEntryAsWritten(ids) {
      var tokens := TrimAll(JavaSplit(ids, ','));
      assert tokens == [];
      assert "id IN (" + Join(tokens, ',') + ")" == "id IN ()";
      assert !IsValidInteger("");
      assert Pieces("id IN ()"[7..7], ',') == [""];
    }
  }

  /** `x-y`: exactly two pieces around the dashes, both ints once trimmed. */
  function IdRangeEntry(ids: string): (r: Result<Entry, Error>)
    ensures r.Ok? ==> !StartsWith(r.value.display, LimitMark)
  {
    var range := JavaSplit(ids, '-');
    if |range| != 2 then Err(BadRangeFormat)
    else
      var start, end := Trim(range[0]), Trim(range[1]);
      if IsValidInteger(start) && IsValidInteger(end) then
        NotLimitByFirst("ID Range: " + start + " - " + end);
        Ok(Entry("id BETWEEN " + start + " AND " + end, "ID Range: " + start + " - " + end))
      else Err(InvalidIdRange)
  }

  /** `a,b,c`: at least one piece, and every piece between the commas an
      int once trimmed. */
  function IdListEntry(ids: string): (r: Result<Entry, Error>)
    ensures r.Ok? ==> !StartsWith(r.value.display, LimitMark)
  {
    var tokens := TrimAll(JavaSplit(ids, ','));
    NotLimitByFirst("ID(s): " + ids);
    if tokens != [] && AllValid(tokens) then Ok(Entry("id IN (" + Join(tokens, ',') + ")", "ID(s): " + ids))
    else Err(InvalidIdList)
  }

  /** The list branch as written: no check that there is any token. */
  function IdListEntryAsWritten(ids: string): (r: Result<Entry, Error>)
    ensures r.Ok? ==> !StartsWith(r.value.display, LimitMark)
  {
    var tokens := TrimAll(JavaSplit(ids, ','));
    NotLimitByFirst("ID(s): " + ids);
    if AllValid(tokens) then Ok(Entry("id IN (" + Join(tokens, ',') + ")", "ID(s): " + ids))
    else Err(InvalidIdList)
  }

  /** A single int once trimmed. */
  function IdSingleEntry(ids: string): (r: Result<Entry, Error>)
    ensures r.Ok? ==> !StartsWith(r.value.display, LimitMark)
  {
    var id := Trim(ids);
    NotLimitByFirst("ID(s): " + ids);
    if IsValidInteger(id) then Ok(Entry("id = " + id, "ID(s): " + ids)) else Err(InvalidId)
  }

  /** The typed meaning of an id filter: which ids it admits. */
  datatype IdFilter = IdSingle(id: int) | IdList(ids: seq<int>) | IdRange(lo: int, hi: int)

  /** Every token read as an int, or None if one is not an int. */
  function ParseAll(tokens: seq<string>): (r: Option<seq<int>>)
    ensures r.Some? <==> AllValid(tokens)
    ensures r.Some? ==> |r.value| == |tokens|
                        && forall k :: 0 <= k < |tokens| ==> ParseInt(tokens[k]) == Some(r.value[k])
  {
    if |tokens| == 0 then Some([])
    else
      var head := ParseInt(tokens[0]);
      var tail := ParseAll(tokens[1..]);
      assert forall k :: 1 <= k < |tokens| ==> tokens[1..][k - 1] == tokens[k];
      if head.None? || tail.None? then None
      else Some([head.value] + tail.value)
  }

  /** What the user's id input asks for, read as ints. */
  function IdMeaning(ids: string): Option<IdFilter> {
    if ids == "" then None
    else if '-' in ids then
      var range := JavaSplit(ids, '-');
      if |range| != 2 then None
      else
        var lo, hi := ParseInt(Trim(range[0])), ParseInt(Trim(range[1]));
        if lo.Some? && hi.Some? then Some(IdRange(lo.value, hi.value)) else None
    else if ',' in ids then
      var all := ParseAll(TrimAll(JavaSplit(ids, ',')));
      if all.Some? && all.value != [] then Some(IdList(all.value)) else None
    else
      var id := ParseInt(Trim(ids));
      if id.Some? then Some(IdSingle(id.value)) else None
  }

  /** Reads an id predicate back as SQL parses it: `id = n`,
      `id IN (n1,...,nk)` with at least one id, or `id BETWEEN a AND b`. */
  function ReadIdPredicate(p: string): Option<IdFilter> {
    if StartsWith(p, "id = ") then
      var id := ParseInt(p[5..]);
      if id.Some? then Some(IdSingle(id.value)) else None
    else if StartsWith(p, "id IN (") && |p| >= 8 && p[|p| - 1] == ')' then
      var all := ParseAll(Pieces(p[7..|p| - 1], ','));
      if all.Some? then Some(IdList(all.value)) else None
    else if StartsWith(p, "id BETWEEN ") then
      var words := Pieces(p[11..], ' ');
      if |words| == 3 && words[1] == "AND" && IsValidInteger(words[0]) && IsValidInteger(words[2]) then
        Some(IdRange(ParseInt(words[0]).value, ParseInt(words[2]).value))
      else None
    else None
  }

  /** An int literal holds neither a space nor a comma. */
  lemma ValidIntegerHasNoSeparator(s: string)
    requires IsValidInteger(s)
    ensures ' ' !in s && ',' !in s && |s| >= 1
    ensures !IsBlank(s[0]) && !IsBlank(s[|s| - 1])
  {
  }

  /** A label whose first character is not `L` is not the limit's tag. */
  lemma NotLimitByFirst(s: string)
    requires |s| > 0 && s[0] != 'L'
    ensures !StartsWith(s, LimitMark)
  {
  }

  lemma IdRangeDenotes(start: string, end: string)
    requires IsValidInteger(start) && IsValidInteger(end)
    ensures ReadIdPredicate("id BETWEEN " + start + " AND " + end)
              == Some(IdRange(ParseInt(start).value, ParseInt(end).value))
  {
    var p := "id BETWEEN " + start + " AND " + end;
    ValidIntegerHasNoSeparator(start);
    ValidIntegerHasNoSeparator(end);
    assert Join(["AND", end], ' ') == "AND" + [' '] + end;
    assert [start, "AND", end][1..] == ["AND", end];
    assert Join([start, "AND", end], ' ') == start + [' '] + ("AND" + [' '] + end);
    assert p[11..] == Join([start, "AND", end], ' ');
    PiecesOfJoin([start, "AND", end], ' ');
    assert !StartsWith(p, "id = ") by { assert p[..5][3] == 'B'; }
    assert !StartsWith(p, "id IN (") by { assert p[..7][3] == 'B'; }
  }

  lemma IdListDenotes(tokens: seq<string>)
    requires tokens != [] && AllValid(tokens)
    ensures ReadIdPredicate("id IN (" + Join(tokens, ',') + ")") == Some(IdList(ParseAll(tokens).value))
  {
    var body := Join(tokens, ',');
    var p := "id IN (" + body + ")";
    assert p[7..|p| - 1] == body;
    assert !StartsWith(p, "id = ") by { assert p[..5][3] == 'I'; }
    forall k | 0 <= k < |tokens| ensures ',' !in tokens[k] {
      ValidIntegerHasNoSeparator(tokens[k]);
    }
    PiecesOfJoin(tokens, ',');
  }

  lemma IdSingleDenotes(id: string)
    requires IsValidInteger(id)
    ensures ReadIdPredicate("id = " + id) == Some(IdSingle(ParseInt(id).value))
  {
    var p := "id = " + id;
    assert p[5..] == id;
  }

  /** The list branch admits exactly the ids its tokens name. */
  lemma IdListEntryDenotes(ids: string)
    requires ids != "" && '-' !in ids && ',' in ids
    ensures IdListEntry(ids).Ok? <==> IdMeaning(ids).Some?
    ensures IdListEntry(ids).Ok? ==> ReadIdPredicate(IdListEntry(ids).value.filter) == IdMeaning(ids)
  {
    var tokens := TrimAll(JavaSplit(ids, ','));
    if tokens != [] && AllValid(tokens) {
      IdListDenotes(tokens);
    }
  }

  /** The id predicate, read back as SQL, admits exactly the ids the user
      typed, and the panel rejects the input exactly when it does not name
      ids. */
  lemma IdEntryDenotes(ids: string)
    ensures IdEntry(ids).Ok? <==> IdMeaning(ids).Some?
    ensures IdEntry(ids).Ok? ==> ReadIdPredicate(IdEntry(ids).value.filter) == IdMeaning(ids)
  {
    if ids == "" {
    } else if '-' in ids {
      var range := JavaSplit(ids, '-');
      if |range| == 2 && IsValidInteger(Trim(range[0])) && IsValidInteger(Trim(range[1])) {
        IdRangeDenotes(Trim(range[0]), Trim(range[1]));
      }
    } else if ',' in ids {
      IdListEntryDenotes(ids);
    } else if IsValidInteger(Trim(ids)) {
      IdSingleDenotes(Trim(ids));
    }
  }

  /** Which of the three shapes an id input takes is decided by the
      separators alone, and so is the error it gets. */
  lemma IdDispatch(ids: string)
    requires ids != ""
    ensures var r := IdEntry(ids);
      && ('-' in ids ==>
            && (r.Ok? ==> IdMeaning(ids).Some? && IdMeaning(ids).value.IdRange?)
            && (r.Err? ==> r.error == (if |JavaSplit(ids, '-')| != 2 then BadRangeFormat else InvalidIdRange)))
      && ('-' !in ids && ',' in ids ==>
            && (r.Ok? ==> IdMeaning(ids).Some? && IdMeaning(ids).value.IdList? && r.value.display == "ID(s): " + ids)
            && (r.Err? ==> r.error == InvalidIdList))
      && ('-' !in ids && ',' !in ids ==>
            && (r.Ok? ==> IdMeaning(ids).Some? && IdMeaning(ids).value.IdSingle? && r.value.display == "ID(s): " + ids)
            && (r.Err? ==> r.error == InvalidId))
  {
    IdEntryDenotes(ids);
  }

  /** The list branch, for an input that reaches it and whose tokens are
      all ints. */
  lemma IdListBranch(ids: string)
    requires '-' !in ids && ',' in ids
    requires JavaSplit(ids, ',') != [] && AllValid(TrimAll(JavaSplit(ids, ',')))
    ensures IdEntry(ids) == Ok(Entry("id IN (" + Join(TrimAll(JavaSplit(ids, ',')), ',') + ")", "ID(s): " + ids))
  {
  }

  /** Comma-joined parts without dashes, the last one non-empty, split back
      into the parts and reach the list branch. */
  lemma CommaList(parts: seq<string>)
    requires |parts| >= 2 && parts[|parts| - 1] != ""
    requires forall k :: 0 <= k < |parts| ==> ',' !in parts[k] && '-' !in parts[k]
    ensures var ids := Join(parts, ',');
      JavaSplit(ids, ',') == parts && '-' !in ids && ',' in ids
  {
    var ids := Join(parts, ',');
    JavaSplitOfJoin(parts, ',');
    JoinAvoids(parts, ',', '-');
    assert ids == parts[0] + [','] + Join(parts[1..], ',');
    assert ids[|parts[0]|] == ',';
  }

  /** An int contains no comma or blank, so trimming leaves it alone, and
      it is never empty. */
  lemma PlainInt(s: string)
    requires IsValidInteger(s)
    ensures ',' !in s && Trim(s) == s && s != ""
  {
    ValidIntegerHasNoSeparator(s);
    TrimUnblanked(s);
  }

  /** Ints contain no commas or blanks: trimming leaves them alone and none
      is empty. */
  lemma PlainInts(parts: seq<string>)
    requires |parts| >= 1
    requires forall k :: 0 <= k < |parts| ==> IsValidInteger(parts[k])
    ensures forall k :: 0 <= k < |parts| ==> ',' !in parts[k] && Trim(parts[k]) == parts[k]
    ensures TrimAll(parts) == parts && parts[|parts| - 1] != ""
  {
    forall k | 0 <= k < |parts|
      ensures ',' !in parts[k] && Trim(parts[k]) == parts[k]
    {
      PlainInt(parts[k]);
    }
    PlainInt(parts[|parts| - 1]);
  }

  /** Comma-separated non-negative ints with no blanks are embedded
      verbatim: the IN list is the input itself. */
  lemma IdListVerbatim(parts: seq<string>)
    requires |parts| >= 2
    requires forall k :: 0 <= k < |parts| ==> IsValidInteger(parts[k]) && '-' !in parts[k]
    ensures var ids := Join(parts, ',');
      IdEntry(ids) == Ok(Entry("id IN (" + ids + ")", "ID(s): " + ids))
  {
    PlainInts(parts);
    CommaList(parts);
    IdListBranch(Join(parts, ','));
  }

  /** A single id without blanks is embedded as typed: the predicate
      holds the input itself, not the number it denotes. */
  lemma IdSingleVerbatim(t: string)
    requires IsValidInteger(t) && '-' !in t
    ensures IdEntry(t) == Ok(Entry("id = " + t, "ID(s): " + t))
  {
    PlainInt(t);
  }

  /** Two different spellings of an id, such as `5` and `05`, build two
      different predicates, so the second is not refused as a duplicate of
      the first even when both name the same id. */
  lemma IdSingleKeepsSpelling(a: string, b: string)
    requires IsValidInteger(a) && '-' !in a
    requires IsValidInteger(b) && '-' !in b
    requires a != b
    ensures IdEntry(a).Ok? && IdEntry(b).Ok?
    ensures IdEntry(a).value.filter != IdEntry(b).value.filter
  {
    IdSingleVerbatim(a);
    IdSingleVerbatim(b);
    assert ("id = " + a)[5..] == a;
    assert ("id = " + b)[5..] == b;
  }

  /** A range `a-b` of two unsigned ids without blanks is embedded as
      typed, in the predicate and in the label. */
  lemma IdRangeVerbatim(a: string, b: string)
    requires IsValidInteger(a) && '-' !in a
    requires IsValidInteger(b) && '-' !in b
    ensures IdEntry(a + "-" + b)
              == Ok(Entry("id BETWEEN " + a + " AND " + b, "ID Range: " + a + " - " + b))
  {
    PlainInt(a);
    PlainInt(b);
    var ids := a + "-" + b;
    DashSplit(a, b);
    assert IdEntry(ids) == IdRangeEntry(ids);
  }

  /** `a-b` with no dash in `a` or `b` and `b` not empty splits into `a`
      and `b`. */
  lemma DashSplit(a: string, b: string)
    requires '-' !in a && '-' !in b && b != ""
    ensures '-' in a + "-" + b && (a + "-" + b) != ""
    ensures JavaSplit(a + "-" + b, '-') == [a, b]
  {
    var ids := a + "-" + b;
    assert [a, b][1..] == [b];
    assert Join([a, b], '-') == ids;
    JavaSplitOfJoin([a, b], '-');
    assert ids[|a|] == '-';
  }

  /** Blanks around the ids do not change the predicate, only the label:
      `1,2` and `1, 2` build the same `id IN (1,2)`, so the second is
      rejected as a duplicate of the first. */
  lemma IdListBlanksCollide(parts: seq<string>, padded: seq<string>)
    requires |parts| == |padded| >= 2
    requires forall k :: 0 <= k < |parts| ==> IsValidInteger(parts[k]) && '-' !in parts[k]
    requires forall k :: 0 <= k < |padded| ==>
               Trim(padded[k]) == parts[k] && ',' !in padded[k] && '-' !in padded[k]
    ensures IdEntry(Join(padded, ',')).Ok? && IdEntry(Join(parts, ',')).Ok?
    ensures IdEntry(Join(padded, ',')).value.filter == IdEntry(Join(parts, ',')).value.filter
  {
    IdListVerbatim(parts);
    PlainInts(parts);
    TrimsTo(padded, parts);
    CommaList(padded);
    IdListBranch(Join(padded, ','));
  }

  /** Pieces that trim to the parts, the last of which is not empty. */
  lemma TrimsTo(padded: seq<string>, parts: seq<string>)
    requires |parts| == |padded| >= 1 && parts[|parts| - 1] != ""
    requires forall k :: 0 <= k < |padded| ==> Trim(padded[k]) == parts[k]
    ensures TrimAll(padded) == parts && padded[|padded| - 1] != ""
  {
    assert Trim("") == "";
  }

  /** Comma-joined parts followed by one more comma split back into the
      parts and reach the list branch. */
  lemma SplitTrailingComma(parts: seq<string>)
    requires |parts| >= 1 && parts[|parts| - 1] != ""
    requires forall k :: 0 <= k < |parts| ==> ',' !in parts[k] && '-' !in parts[k]
    ensures var ids := Join(parts, ',') + [','];
      JavaSplit(ids, ',') == parts && '-' !in ids && ',' in ids
  {
    var ids := Join(parts, ',') + [','];
    JoinSnoc(parts, "", ',');
    assert Join(parts + [""], ',') == ids;
    JoinAvoids(parts, ',', '-');
    JavaSplitOfJoin(parts + [""], ',');
    assert DropTrailingEmpty(parts + [""]) == parts by {
      assert (parts + [""])[..|parts|] == parts;
    }
    assert ids[|ids| - 1] == ',';
  }

  /** Java's split drops the empty piece after a trailing comma, so the
      comma is silently ignored: `1,2,` builds `id IN (1,2)`. */
  lemma IdListTrailingComma(parts: seq<string>)
    requires |parts| >= 1
    requires forall k :: 0 <= k < |parts| ==> IsValidInteger(parts[k]) && '-' !in parts[k]
    ensures var ids := Join(parts, ',') + [','];
      IdEntry(ids) == Ok(Entry("id IN (" + Join(parts, ',') + ")", "ID(s): " + ids))
  {
    var ids := Join(parts, ',') + [','];
    PlainInts(parts);
    SplitTrailingComma(parts);
    IdListBranch(ids);
  }

  /** For the same reason a trailing dash leaves one piece, which is not a
      range: `5-` is a format error. */
  lemma IdRangeTrailingDash(id: string)
    requires IsValidInteger(id) && '-' !in id
    ensures IdEntry(id + ['-']) == Err(BadRangeFormat)
  {
    ValidIntegerHasNoSeparator(id);
    assert Join([id, ""], '-') == id + ['-'];
    JavaSplitOfJoin([id, ""], '-');
    assert DropTrailingEmpty([id, ""]) == [id];
    assert (id + ['-'])[|id|] == '-';
  }
}

=== FILE: java_int.dfy ===
/** `Integer.parseInt` (radix 10) and `String.valueOf(int)`.

    The source accepts a limit or an id exactly when `Integer.parseInt`
    accepts it: an optional `+` or `-`, then one or more decimal digits,
    with a value that fits a 32-bit signed int. */
module JavaInt {
  import opened Wrappers

  const MinInt: int := -0x8000_0000
  const MaxInt: int := 0x7fff_ffff

  predicate InInt32(n: int) {
    MinInt <= n <= MaxInt
  }

  predicate IsDigit(c: char) {
    '0' <= c <= '9'
  }

  predicate AllDigits(s: string) {
    forall k :: 0 <= k < |s| ==> IsDigit(s[k])
  }

  function DigitValue(c: char): int
    requires IsDigit(c)
  {
    c as int - '0' as int
  }

  /** The number a run of decimal digits denotes, read left to right. */
  function DigitsValue(s: string): (v: int)
    requires AllDigits(s)
    ensures v >= 0
  {
    if |s| == 0 then 0 else DigitsValue(s[..|s| - 1]) * 10 + DigitValue(s[|s| - 1])
  }

  /** Java's `/` on int truncates toward zero; Dafny's rounds toward minus infinity. */
  function JavaDiv(a: int, b: int): int
    requires b > 0
  {
    if a >= 0 then a / b else -((-a) / b)
  }

  /** What `Integer.parseInt(s)` returns, or None where it throws
      NumberFormatException. */
  function ParseInt(s: string): (r: Option<int>)
    ensures r.Some? ==> InInt32(r.value)
  {
    if |s| == 0 then None
    else if s[0] == '-' || s[0] == '+' then
      var digits := s[1..];
      if |digits| == 0 || !AllDigits(digits) then None
      else
        var v := if s[0] == '-' then -DigitsValue(digits) else DigitsValue(digits);
        if InInt32(v) then Some(v) else None
    else if AllDigits(s) && InInt32(DigitsValue(s)) then Some(DigitsValue(s))
    else None
  }

  /** `isValidInteger`: true exactly when `Integer.parseInt` does not throw. */
  predicate IsValidInteger(s: string) {
    ParseInt(s).Some?
  }

  /** A longer run of digits never denotes less than its prefix. */
  lemma {:induction false} DigitsValuePrefix(s: string, j: nat)
    requires AllDigits(s) && j <= |s|
    ensures DigitsValue(s[..j]) <= DigitsValue(s)
    decreases |s|
  {
    if j < |s| {
      assert s[..j] == s[..|s| - 1][..j];
      DigitsValuePrefix(s[..|s| - 1], j);
    } else {
      assert s[..j] == s;
    }
  }

  /** Java's own algorithm: the value is accumulated as a negative number
      and compared against `limit` and `multmin` before every step, so no
      intermediate value leaves the int range. Its result is exactly the
      declarative reading above. */
  method ParseIntJava(s: string) returns (r: Option<int>)
    ensures r == ParseInt(s)
  {
    if |s| == 0 {
      return None;
    }
    var negative := false;
    var i := 0;
    var limit := -MaxInt;
    var first := s[0];
    if first < '0' {
      if first == '-' {
        negative := true;
        limit := MinInt;
      } else if first != '+' {
        return None;
      }
      if |s| == 1 {
        return None;
      }
      i := 1;
    }
    ghost var start := i;
    assert start == 1 <==> (s[0] == '-' || s[0] == '+');
    var multmin := JavaDiv(limit, 10);
    var result := 0;
    while i < |s|
      invariant start <= i <= |s|
      invariant AllDigits(s[start..i])
      invariant result == -DigitsValue(s[start..i])
      invariant limit <= result <= 0
    {
      var c := s[i];
      if !IsDigit(c) {
        assert !AllDigits(s[start..]) by { assert s[start..][i - start] == c; }
        return None;
      }
      var d := DigitValue(c);
      assert s[start..i + 1][..i - start] == s[start..i];
      assert DigitsValue(s[start..i + 1]) == -result * 10 + d;
      if result < multmin || result * 10 < limit + d {
        if AllDigits(s[start..]) {
          assert s[start..][..i + 1 - start] == s[start..i + 1];
          DigitsValuePrefix(s[start..], i + 1 - start);
        }
        return None;
      }
      assert InInt32(result * 10);
      result := result * 10;
      result := result - d;
      i := i + 1;
    }
    assert s[start..i] == s[start..];
    if start == 0 {
      assert s == s[0..];
    }
    r := if negative then Some(result) else Some(-result);
  }

  /** The digits of a natural number, without leading zeros. */
  function NatToDigits(n: nat): (s: string)
    ensures |s| >= 1 && AllDigits(s)
    ensures DigitsValue(s) == n
    ensures s[0] == '0' <==> n == 0
  {
    if n < 10 then [('0' as int + n) as char]
    else
      var init := NatToDigits(n / 10);
      var s := init + [('0' as int + n % 10) as char];
      assert s[..|s| - 1] == init;
      s
  }

  /** `String.valueOf(int)`: a minus sign for negative values, then the
      digits without leading zeros. */
  function IntToString(n: int): (s: string)
    ensures |s| >= 1
    ensures n < 0 <==> s[0] == '-'
  {
    if n < 0 then "-" + NatToDigits(-n) else NatToDigits(n)
  }

  /** Rendering an int and parsing it back gives the same int. */
  lemma ParseIntToString(n: int)
    requires InInt32(n)
    ensures ParseInt(IntToString(n)) == Some(n)
  {
    if n < 0 {
      assert IntToString(n)[1..] == NatToDigits(-n);
    }
  }

  /** Digits in canonical form, without a leading zero, are given back
      unchanged by rendering the value they denote. */
  lemma {:induction false} IntToStringDigits(s: string)
    requires |s| >= 1 && AllDigits(s) && (s[0] != '0' || |s| == 1)
    ensures NatToDigits(DigitsValue(s)) == s
    decreases |s|
  {
    var n := DigitsValue(s);
    if |s| == 1 {
    } else {
      var init := s[..|s| - 1];
      assert init[0] == s[0];
      IntToStringDigits(init);
      assert DigitsValue(init) >= 1;
      assert n / 10 == DigitsValue(init);
      assert n % 10 == DigitValue(s[|s| - 1]);
      assert NatToDigits(n) == NatToDigits(n / 10) + [('0' as int + n % 10) as char];
      assert s == init + [s[|s| - 1]];
    }
  }
}

=== FILE: java_text.dfy ===
/** The java.lang.String operations the filter engine leans on:
    `trim`, `contains`, `startsWith` and `split` with a one-character
    delimiter, plus the comma join that StringBuilder performs. */
module JavaText {

  /** `String.trim` treats every character up to U+0020 as blank. */
  predicate IsBlank(c: char) {
    c <= ' '
  }

  predicate AllBlank(s: string) {
    forall k :: 0 <= k < |s| ==> IsBlank(s[k])
  }

  /** Leading blanks removed: the result is the suffix of `s` that starts at
      the first non-blank character. */
  function TrimStart(s: string): (r: string)
    ensures |r| <= |s| && r == s[|s| - |r|..]
    ensures AllBlank(s[..|s| - |r|])
    ensures r == [] || !IsBlank(r[0])
    decreases |s|
  {
    if |s| > 0 && IsBlank(s[0]) then TrimStart(s[1..]) else s
  }

  /** Trailing blanks removed: the result is the prefix of `s` that ends at
      the last non-blank character. */
  function TrimEnd(s: string): (r: string)
    ensures |r| <= |s| && r == s[..|r|]
    ensures AllBlank(s[|r|..])
    ensures r == [] || !IsBlank(r[|r| - 1])
    decreases |s|
  {
    if |s| > 0 && IsBlank(s[|s| - 1]) then TrimEnd(s[..|s| - 1]) else s
  }

  /** `String.trim`. */
  function Trim(s: string): (r: string)
    ensures r == [] || (!IsBlank(r[0]) && !IsBlank(r[|r| - 1]))
  {
    TrimEnd(TrimStart(s))
  }

  /** Trimming a string that neither starts nor ends with a blank is the identity. */
  lemma TrimUnblanked(s: string)
    requires s == [] || (!IsBlank(s[0]) && !IsBlank(s[|s| - 1]))
    ensures Trim(s) == s
  {
  }

  /** Trimming twice is trimming once. */
  lemma TrimIdempotent(s: string)
    ensures Trim(Trim(s)) == Trim(s)
  {
    TrimUnblanked(Trim(s));
  }

  function StartsWith(s: string, prefix: string): bool {
    |prefix| <= |s| && s[..|prefix|] == prefix
  }

  /** The pieces of `s` between occurrences of `sep`, empty pieces included:
      there is always one more piece than there are separators. */
  function Pieces(s: string, sep: char): (r: seq<string>)
    ensures |r| >= 1
    ensures forall k :: 0 <= k < |r| ==> sep !in r[k]
    ensures Join(r, sep) == s
    ensures sep !in s ==> r == [s]
    decreases |s|
  {
    if |s| == 0 then [""]
    else
      var rest := Pieces(s[1..], sep);
      if s[0] == sep then [""] + rest
      else [[s[0]] + rest[0]] + rest[1..]
  }

  /** The parts written one after another with `sep` between neighbours, as
      a StringBuilder does when it appends `sep` before every part but the
      first. */
  function Join(parts: seq<string>, sep: char): string
  {
    if |parts| == 0 then ""
    else if |parts| == 1 then parts[0]
    else parts[0] + [sep] + Join(parts[1..], sep)
  }

  /** Splitting a join recovers the parts, provided none of them holds the
      separator. */
  lemma {:induction false} PiecesOfJoin(parts: seq<string>, sep: char)
    requires |parts| >= 1
    requires forall k :: 0 <= k < |parts| ==> sep !in parts[k]
    ensures Pieces(Join(parts, sep), sep) == parts
    decreases |parts|, |parts[0]|
  {
    var p := parts[0];
    if |p| == 0 {
      if |parts| > 1 {
        PiecesOfJoin(parts[1..], sep);
        assert Join(parts, sep) == [sep] + Join(parts[1..], sep);
        assert Join(parts, sep)[1..] == Join(parts[1..], sep);
      }
    } else {
      var tail := [p[1..]] + parts[1..];
      assert forall k :: 0 <= k < |tail| ==> sep !in tail[k] by {
        forall k | 0 <= k < |tail| ensures sep !in tail[k] {
          if k == 0 {
            assert forall m :: 0 <= m < |p[1..]| ==> p[1..][m] == p[m + 1];
          } else {
            assert tail[k] == parts[k];
          }
        }
      }
      PiecesOfJoin(tail, sep);
      assert tail[1..] == parts[1..];
      if |parts| == 1 {
        assert Join(parts, sep) == p;
        assert Join(tail, sep) == p[1..];
      } else {
        assert Join(parts, sep) == p + [sep] + Join(parts[1..], sep);
        assert Join(tail, sep) == p[1..] + [sep] + Join(parts[1..], sep);
      }
      assert Join(parts, sep)[0] == p[0] && p[0] != sep;
      assert Join(parts, sep)[1..] == Join(tail, sep);
      assert [p[0]] + p[1..] == p;
      assert [p] + parts[1..] == parts;
    }
  }

  /** Trailing empty strings removed, as `String.split(regex)` does with its
      implicit limit of zero. */
  function DropTrailingEmpty(parts: seq<string>): (r: seq<string>)
    ensures |r| <= |parts| && r == parts[..|r|]
    ensures forall k :: |r| <= k < |parts| ==> parts[k] == ""
    ensures r == [] || r[|r| - 1] != ""
  {
    if |parts| > 0 && parts[|parts| - 1] == "" then DropTrailingEmpty(parts[..|parts| - 1])
    else parts
  }

  /** `s.split(String.valueOf(sep))` for a delimiter that is not a regular
      expression metacharacter: the whole string when the delimiter does not
      occur, otherwise the pieces with the trailing empty ones dropped. */
  function JavaSplit(s: string, sep: char): (r: seq<string>)
    ensures forall k :: 0 <= k < |r| ==> sep !in r[k]
    ensures sep !in s ==> r == [s]
  {
    if sep !in s then [s] else DropTrailingEmpty(Pieces(s, sep))
  }

  /** Splitting text made of two or more parts gives the parts back with the
      trailing empty ones dropped: `"1,2,"` splits into `1` and `2`, and
      `"5-"` into `5` alone. */
  lemma JavaSplitOfJoin(parts: seq<string>, sep: char)
    requires |parts| >= 2
    requires forall k :: 0 <= k < |parts| ==> sep !in parts[k]
    ensures JavaSplit(Join(parts, sep), sep) == DropTrailingEmpty(parts)
  {
    PiecesOfJoin(parts, sep);
    assert Join(parts, sep) == parts[0] + [sep] + Join(parts[1..], sep);
    assert Join(parts, sep)[|parts[0]|] == sep;
  }

  /** A character that is in none of the parts and is not the separator is
      not in their join. */
  lemma {:induction false} JoinAvoids(parts: seq<string>, sep: char, c: char)
    requires c != sep
    requires forall k :: 0 <= k < |parts| ==> c !in parts[k]
    ensures c !in Join(parts, sep)
    decreases |parts|
  {
    if |parts| >= 2 {
      JoinAvoids(parts[1..], sep, c);
      assert Join(parts, sep) == parts[0] + [sep] + Join(parts[1..], sep);
    }
  }

  /** Joining one more part adds a separator and the part at the end. */
  lemma {:induction false} JoinSnoc(parts: seq<string>, p: string, sep: char)
    requires |parts| >= 1
    ensures Join(parts + [p], sep) == Join(parts, sep) + [sep] + p
    decreases |parts|
  {
    if |parts| >= 2 {
      JoinSnoc(parts[1..], p, sep);
      assert (parts + [p])[1..] == parts[1..] + [p];
    }
  }
}

=== FILE: query_handler.dfy ===
/** The SQL text builders of the query handler and the way it turns a
    result set into text: column names in column order, then one line per
    row with every cell in column order and a null cell shown as `NULL`.
    The connection, the statement and the column padding are not modelled;
    the store's answer is a parameter. */
module QueryHandler {
  import opened Wrappers
  import opened JavaText
  import opened JavaInt
  import opened SqlText

  /** The unfiltered query; every other query extends it. */
  const AllWinesQuery: string := "SELECT * FROM wine_table"

  /** `getLimitWines`: the unfiltered query with a LIMIT clause. The text
      after the fixed prefix is the limit in decimal and reads back as it. */
  function GetLimitWines(limit: int): (sql: string)
    requires InInt32(limit)
    ensures StartsWith(sql, AllWinesQuery + " LIMIT ")
    ensures ParseInt(sql[|AllWinesQuery + " LIMIT "|..]) == Some(limit)
  {
    var sql := AllWinesQuery + " LIMIT " + IntToString(limit);
    assert sql[|AllWinesQuery + " LIMIT "|..] == IntToString(limit);
    ParseIntToString(limit);
    sql
  }

  const QualityPrefix: string := AllWinesQuery + " WHERE quality = '"
  const ColorPrefix: string := AllWinesQuery + " WHERE color = '"

  /** `getWinesByQuality`: the quality is embedded with its quotes doubled,
      so the literal after the prefix reads back as exactly the quality and
      closes at the end of the query. */
  function GetWinesByQuality(quality: string): (sql: string)
    ensures StartsWith(sql, QualityPrefix)
    ensures ReadLiteral(sql[|QualityPrefix|..]) == Some((quality, ""))
  {
    var sql := QualityPrefix + EscapeQuotes(quality) + "'";
    assert sql[|QualityPrefix|..] == EscapeQuotes(quality) + [Quote] + "";
    ReadEscaped(quality, "");
    sql
  }

  /** `getWinesByColor`: the color is embedded as it is, without escaping.
      A color without quotes therefore reads back as itself. */
  function GetWinesByColor(color: string): (sql: string)
    ensures StartsWith(sql, ColorPrefix)
    ensures Quote !in color ==> ReadLiteral(sql[|ColorPrefix|..]) == Some((color, ""))
  {
    var sql := ColorPrefix + color + "'";
    assert sql[|ColorPrefix|..] == color + [Quote] + "";
    assert Quote !in color ==> ReadLiteral(sql[|ColorPrefix|..]) == Some((color, "")) by {
      if Quote !in color {
        ReadVerbatim(color, "");
      }
    }
    sql
  }

  /** A color holding a quote is not read back as itself: the literal ends
      at the color's own quote and the rest of the color spills into the
      query text. */
  lemma ColorQuoteEndsLiteral()
    ensures ReadLiteral(GetWinesByColor("ros'e")[|ColorPrefix|..]) == Some(("ros", "e'"))
  {
    var body := GetWinesByColor("ros'e")[|ColorPrefix|..];
    assert body == "ros'e'";
    assert body[3..] == "'e'" && body[3..][1..] == "e'";
    assert ReadLiteral(body[3..]) == Some(("", "e'"));
    assert body[2..][1..] == body[3..];
    assert ReadLiteral(body[2..]) == Prepend('s', ReadLiteral(body[3..]));
    assert ['s'] + "" == "s";
    assert body[1..][1..] == body[2..];
    assert ReadLiteral(body[1..]) == Prepend('o', ReadLiteral(body[2..]));
    assert ['o'] + "s" == "os";
    assert ReadLiteral(body) == Prepend('r', ReadLiteral(body[1..]));
    assert ['r'] + "os" == "ros";
  }

  /** The store's answer to one query: the column names in the store's order
      and the rows in the order the cursor returns them; a cell is None when
      the column value is SQL NULL. */
  datatype StoreResult = StoreResult(columns: seq<string>, rows: seq<seq<Option<string>>>)

  /** Every row has one cell per column, as a JDBC result set guarantees. */
  predicate WellShaped(res: StoreResult) {
    forall i :: 0 <= i < |res.rows| ==> |res.rows[i]| == |res.columns|
  }

  /** The text shown for one cell. */
  function CellText(cell: Option<string>): (text: string)
    ensures cell.None? ==> text == "NULL"
    ensures cell.Some? ==> text == cell.value
  {
    match cell
    case None => "NULL"
    case Some(v) => v
  }

  /** One row's cells as text, in column order. */
  function RowText(row: seq<Option<string>>): (line: seq<string>)
    ensures |line| == |row| && forall j :: 0 <= j < |row| ==> line[j] == CellText(row[j])
  {
    seq(|row|, j requires 0 <= j < |row| => CellText(row[j]))
  }

  /** The rows as the executor projects them, one line of cell text per
      row and in cursor order. */
  function Projection(res: StoreResult): (lines: seq<seq<string>>)
    requires WellShaped(res)
    ensures |lines| == |res.rows|
    ensures forall i :: 0 <= i < |lines| ==> |lines[i]| == |res.columns|
    ensures forall i, j :: 0 <= i < |lines| && 0 <= j < |res.columns| ==>
              lines[i][j] == CellText(res.rows[i][j])
    decreases |res.rows|
  {
    if res.rows == [] then []
    else
      var rest := StoreResult(res.columns, res.rows[1..]);
      assert forall i :: 1 <= i < |res.rows| ==> rest.rows[i - 1] == res.rows[i];
      [RowText(res.rows[0])] + Projection(rest)
  }

  /** The header line and the data lines, padding left out. */
  datatype Table = Table(header: seq<string>, lines: seq<seq<string>>)

  /** `executeQuery`'s output: the header lists the columns 1..columnCount in
      order, and there is one line per row, in cursor order, whose j-th cell
      is the row's j-th column value or `NULL`. */
  method ExecuteQuery(res: StoreResult) returns (t: Table)
    requires WellShaped(res)
    ensures t.header == res.columns
    ensures |t.lines| == |res.rows|
    ensures forall i :: 0 <= i < |t.lines| ==> |t.lines[i]| == |res.columns|
    ensures forall i, j :: 0 <= i < |t.lines| && 0 <= j < |res.columns| ==>
              t.lines[i][j] == CellText(res.rows[i][j])
    ensures t.lines == Projection(res)
  {
    var columnCount := |res.columns|;
    var header: seq<string> := [];
    var c := 0;
    while c < columnCount
      invariant 0 <= c <= columnCount
      invariant header == res.columns[..c]
    {
      header := header + [res.columns[c]];
      c := c + 1;
    }
    var lines: seq<seq<string>> := [];
    var r := 0;
    while r < |res.rows|
      invariant 0 <= r <= |res.rows|
      invariant |lines| == r
      invariant forall i :: 0 <= i < r ==> |lines[i]| == columnCount
      invariant forall i, j :: 0 <= i < r && 0 <= j < columnCount ==>
                  lines[i][j] == CellText(res.rows[i][j])
    {
      var row := res.rows[r];
      var line: seq<string> := [];
      var k := 0;
      while k < columnCount
        invariant 0 <= k <= columnCount
        invariant |line| == k
        invariant forall j :: 0 <= j < k ==> line[j] == CellText(row[j])
      {
        line := line + [CellText(row[k])];
        k := k + 1;
      }
      lines := lines + [line];
      r := r + 1;
    }
    assert header == res.columns;
    var projected := Projection(res);
    forall i | 0 <= i < |lines|
      ensures lines[i] == projected[i]
    {
      assert |lines[i]| == |projected[i]|;
    }
    t := Table(header, lines);
  }
}

=== FILE: scenarios.dfy ===
/** Concrete inputs to the id field of the filter panel: a single id, a
    range, a malformed range and a lone comma. */
module Scenarios {
  import opened Wrappers
  import opened JavaText
  import opened JavaInt
  import opened FilterRequests

  /** A non-negative int literal is a valid int and trims to itself. */
  lemma Literal(s: string, n: int)
    requires 0 <= n <= MaxInt && s == IntToString(n)
    ensures IsValidInteger(s) && Trim(s) == s && ParseInt(s) == Some(n)
  {
    ParseIntToString(n);
    TrimUnblanked(s);
  }

  /** A single decimal digit is a valid int and trims to itself. */
  lemma Digit(s: string)
    requires |s| == 1 && IsDigit(s[0])
    ensures IsValidInteger(s) && Trim(s) == s
  {
    assert DigitsValue(s) == DigitValue(s[0]);
    TrimUnblanked(s);
  }

  lemma IdSingleExample()
    ensures IdEntry("5") == Ok(Entry("id = 5", "ID(s): 5"))
  {
    Digit("5");
    assert '-' !in "5" && ',' !in "5";
    assert IdEntry("5").value.filter == "id = 5";
    assert IdEntry("5").value.display == "ID(s): 5";
  }

  lemma IdRangeExample()
    ensures IdEntry("5-10") == Ok(Entry("id BETWEEN 5 AND 10", "ID Range: 5 - 10"))
  {
    assert IntToString(5) == "5" && IntToString(10) == "10";
    Literal("5", 5); Literal("10", 10);
    assert Join(["5", "10"], '-') == "5-10";
    JavaSplitOfJoin(["5", "10"], '-');
    assert '-' in "5-10";
    assert JavaSplit("5-10", '-') == ["5", "10"];
    assert IdEntry("5-10").value.filter == "id BETWEEN 5 AND 10";
    assert IdEntry("5-10").value.display == "ID Range: 5 - 10";
  }

  lemma IdMalformedRangeExample()
    ensures IdEntry("5-10-3") == Err(BadRangeFormat)
  {
    assert Join(["5", "10", "3"], '-') == "5-10-3";
    JavaSplitOfJoin(["5", "10", "3"], '-');
    assert JavaSplit("5-10-3", '-') == ["5", "10", "3"];
  }

  /** As written, a lone comma splits into nothing, so no token is checked
      and the predicate lists no ids at all: SQL reads nothing back from it. */
  lemma IdLoneCommaExample()
    ensures IdEntryAsWritten(",") == Ok(Entry("id IN ()", "ID(s): ,"))
    ensures ReadIdPredicate("id IN ()") == None
  {
    LoneCommaSplitsToNothing();
    assert "id IN (" + Join([], ',') + ")" == "id IN ()";
    assert '-' !in "," && ',' in ",";
    assert AllValid([]);
    assert "ID(s): " + "," == "ID(s): ,";
    assert IdListEntryAsWritten(",") == Ok(Entry("id IN ()", "ID(s): ,"));
    assert !IsValidInteger("");
    assert "id IN ()"[7..7] == "";
  }

  /** The corrected panel refuses the lone comma. */
  lemma IdLoneCommaRejected()
    ensures IdEntry(",") == Err(InvalidIdList)
  {
    LoneCommaSplitsToNothing();
    assert '-' !in "," && ',' in ",";
  }

  lemma LoneCommaSplitsToNothing()
    ensures TrimAll(JavaSplit(",", ',')) == []
  {
    assert Join(["", ""], ',') == ",";
    JavaSplitOfJoin(["", ""], ',');
    assert JavaSplit(",", ',') == [];
  }
}

=== FILE: sql_text.dfy ===
/** Single-quoted SQL string literals: the quote doubling that
    `String.replace("'", "''")` performs, and a reader for standard SQL
    quoting, in which a doubled quote stands for one quote and a backslash
    is an ordinary character. MySQL's default mode also treats a backslash
    as an escape; that reading is not modelled here. */
module SqlText {
  import opened Wrappers

  const Quote: char := '\''

  /** Every `'` replaced by `''`; every other character kept. */
  function EscapeQuotes(s: string): (r: string)
    ensures |r| >= |s|
    ensures Quote !in s ==> r == s
  {
    if |s| == 0 then ""
    else (if s[0] == Quote then [Quote, Quote] else [s[0]]) + EscapeQuotes(s[1..])
  }

  function Prepend(c: char, read: Option<(string, string)>): Option<(string, string)> {
    if read.None? then None else Some(([c] + read.value.0, read.value.1))
  }

  /** The body of a literal whose opening quote has already been read: a
      doubled quote stands for one quote, a single quote ends the literal.
      The result is the literal's value and the text after its closing
      quote, or None when the literal is never closed. */
  function ReadLiteral(t: string): Option<(string, string)>
    decreases |t|
  {
    if |t| == 0 then None
    else if t[0] == Quote then
      if |t| >= 2 && t[1] == Quote then Prepend(Quote, ReadLiteral(t[2..]))
      else Some(("", t[1..]))
    else Prepend(t[0], ReadLiteral(t[1..]))
  }

  /** Text wrapped as `'...'` with its quotes doubled reads back as exactly
      that text, and the literal ends at the closing quote the builder wrote:
      the doubled body holds no quote that could end it early. The text
      after the literal must not itself open with a quote, which would
      turn the closing quote into half of a doubled one. */
  lemma {:induction false} ReadEscaped(s: string, rest: string)
    requires rest == [] || rest[0] != Quote
    ensures ReadLiteral(EscapeQuotes(s) + [Quote] + rest) == Some((s, rest))
    decreases |s|
  {
    var t := EscapeQuotes(s) + [Quote] + rest;
    if |s| == 0 {
      assert t == [Quote] + rest;
      assert t[1..] == rest;
    } else {
      var tail := EscapeQuotes(s[1..]) + [Quote] + rest;
      ReadEscaped(s[1..], rest);
      assert ReadLiteral(tail) == Some((s[1..], rest));
      if s[0] == Quote {
        assert t == [Quote, Quote] + tail;
        assert t[2..] == tail;
        assert ReadLiteral(t) == Some(([Quote] + s[1..], rest));
      } else {
        assert t == [s[0]] + tail;
        assert t[1..] == tail;
        assert ReadLiteral(t) == Some(([s[0]] + s[1..], rest));
      }
      assert [s[0]] + s[1..] == s;
    }
  }

  /** Text without quotes is embedded unchanged and reads back as itself. */
  lemma ReadVerbatim(s: string, rest: string)
    requires Quote !in s
    requires rest == [] || rest[0] != Quote
    ensures ReadLiteral(s + [Quote] + rest) == Some((s, rest))
  {
    ReadEscaped(s, rest);
  }
}

=== FILE: wrappers.dfy ===
/** Option and Result values used for the source's null references and
    for the error dialogs it shows instead of changing state. */
module Wrappers {

  datatype Option<+T> = None | Some(value: T)

  datatype Result<+T, +E> = Ok(value: T) | Err(error: E)
}
